=== FILE: README.md ===
# Document dashboard decision rules in Dafny

This project models the pure decision logic of a React dashboard for a document pipeline. The pipeline covers analysis, a GDPR check and sharing with approval. Rendering, HTTP and timers are left out. Every rule the pages apply to what the backend returns is written as a total Dafny function over immutable datatypes. Properties are stated as contracts and lemmas.

The model is split by source file:

- **AnalyzePage**, **GdprPage** and **SharingPage** (`src/pages/*.jsx`). Each page's status poller is a step function `Tick(state, response) -> (state', Exit)`. `Run` feeds a sequence of responses to successive ticks. The exits are `Continue`, `Success(result)`, `Failed`, `Timeout`, `ErrorStop` and `Finished`. Around the pollers:
  - each page's `handleSubmit`: the checks before the request and what each backend answer leads to;
  - the step-status icon (AnalyzePage);
  - the GDPR decision card, compliance meter and progress animation (GdprPage);
  - the recipient list, the required department and the approval actions (SharingPage).
- **HomeStats** (`src/pages/HomePage.jsx`). The aggregation inside `fetchStatistics`:
  - the status counts;
  - the per-department tally, kept in insertion order and then sorted;
  - the GDPR buckets;
  - the chart series with zero entries removed;
  - the ten most recent documents.
- **FileSelector** and **AnalyzedFiles** (`src/components/*.jsx`). The eligibility filters, the newest-first ordering, the load outcome, the file-type icon and the summary preview.
- **Config** (`src/config.js`). The choice of base URL and `getApiUrl`'s joining of base and path.
- **Shared modules:**
  - Js: optional values, truthiness, `||` defaults, `toLowerCase`, `trim`-blankness and `join`.
  - Seqs: `filter` and `slice`.
  - Sorting: a stable descending sort by an integer key.
  - Documents: the status record returned by `GET /api/document/status/{id}`.
  - Polling: the exit kinds and the `setInterval` handle registry.

Timestamps (`created_at`, `createdAt`) are optional integers. A missing one counts as 0, as `new Date(x || 0)` does. An optional object field is `Some` exactly when the source's truthiness test passes. An optional string field may be `Some("")`; `Js.Truthy` treats that as falsy, as JavaScript does.

Behaviour that is easy to misread:

- The comment on the analysis poller's error branch (`AnalyzePage.jsx:158`) speaks of stopping after ten failed attempts. The check below it compares the tick counter, which counts every tick, with 10 (`AnalyzePage.jsx:159`). So after nine unfinished but successful polls, a single failed request ends polling. `AnalyzePage.ErrorBudgetCountsAllTicks` proves this.
- The GDPR poller's exception branch stops polling only once the 60-poll budget is spent (`GDPRPage.jsx:188-194`). Below the budget every exception, and every non-ok status answer, continues polling.
- A GDPR trigger refused with a non-ok status is not reported as an error. The page asks the status endpoint instead and starts polling if that answers (`GDPRPage.jsx:85-97`). `GdprPage.Submit` states this.
- When a job ends as `completed` without a GDPR result, the GDPR poller stops without reporting a result or a timeout (`Finished`).
- The sharing poller has no poll bound at all (`SharingPage.NoPollBound`).
- Submitting a share raises `loading` (`SharingPage.jsx:169`). Only the submit's error path lowers it (`SharingPage.jsx:213`); neither the approval branch nor the sharing poller does. So after any successful trigger the share button stays disabled and the spinner stays on (`SharingPage.jsx:446-451`). `SharingPage.LoadingAfter` and `SharingPage.SuccessKeepsFormLocked` state this.

## Model

| member | source | states |
|---|---|---|
| Polling.StartInterval | src/pages/AnalyzePage.jsx:93-97 | starting an interval registers the new handle; if at most one interval ran before, exactly the new one runs afterwards |
| Polling.StopInterval | src/pages/AnalyzePage.jsx:119-120 | clearing the current interval nulls the handle, stops that interval, and leaves no interval running when at most one was running |
| AnalyzePage.StartPolling | src/pages/AnalyzePage.jsx:88-97 | a new poll resets the counter and replaces any active interval, so only the new interval is running |
| AnalyzePage.Stop | src/pages/AnalyzePage.jsx:143-146 | a stopping branch nulls the interval handle and turns `loading` and `isAnalyzing` off |
| AnalyzePage.Tick | src/pages/AnalyzePage.jsx:97-167 | each tick raises the counter by one. Success iff the response has an analysis result and the analysis step is completed; the result is then stored. Failed iff not success and the step or the job reports failed. Timeout iff the response is non-terminal and the counter reached 300. ErrorStop iff the request failed and the counter reached 10. Every stop clears the interval and the spinners; a continuing tick changes neither |
| AnalyzePage.Run | src/pages/AnalyzePage.jsx:97-167 | running ticks over a response sequence counts every tick it performs and stops polling on the tick that ends it |
| AnalyzePage.RunIgnoresLaterResponses | src/pages/AnalyzePage.jsx:115-150 | once a tick has stopped polling, responses after it change nothing: the outcome is reported once |
| AnalyzePage.RunContinues | src/pages/AnalyzePage.jsx:97-167 | a run that is still polling continues on further responses from the state it reached |
| AnalyzePage.PollBound | src/pages/AnalyzePage.jsx:142-150 | whatever the backend answers, polling stops by tick 300 |
| AnalyzePage.SuccessTakesPrecedence | src/pages/AnalyzePage.jsx:115-150 | a completing response yields success even on the last allowed tick and even when the job also reports failed |
| AnalyzePage.StopsByFirstCompletion | src/pages/AnalyzePage.jsx:111-129 | a backend that completes on its n-th answer is done within n ticks |
| AnalyzePage.NonTerminalRunContinues | src/pages/AnalyzePage.jsx:141-155 | unfinished, non-failed answers under the budget keep polling on the same interval |
| AnalyzePage.EarlyErrorsTolerated | src/pages/AnalyzePage.jsx:156-166 | failed requests on the first nine ticks never stop polling |
| AnalyzePage.ErrorBudgetCountsAllTicks | src/pages/AnalyzePage.jsx:159 | the error budget counts all ticks: after nine or more successful unfinished polls, one failed request ends polling with an error |
| AnalyzePage.StatusIcon | src/pages/AnalyzePage.jsx:179-187 | completed, processing, failed and skipped each get their own icon, and exactly the other values (missing included) get the waiting icon; `SharingPage.jsx:246-253` defines the same mapping |
| AnalyzePage.GlyphsDistinct | src/pages/AnalyzePage.jsx:179-187 | the five icons render five different glyphs, so the glyph tells which case a step is in |
| AnalyzePage.StepText | src/pages/AnalyzePage.jsx:280 | the text beside the icon reads completed iff the step is completed, in progress iff it is processing, and waiting for every other status, including a missing one |
| AnalyzePage.IconMatchesText | src/pages/AnalyzePage.jsx:280 | icon and text agree on completed and processing steps; a failed or skipped step shows its own icon beside the waiting text |
| AnalyzePage.ProcessingStatus | src/pages/AnalyzePage.jsx:70 | the status shown while an analysis starts reports the job and the analysis step as processing, which neither completes nor fails a poll |
| AnalyzePage.Submit | src/pages/AnalyzePage.jsx:39-86 | without a file the alert is shown; otherwise the analysis starts iff the upload answered with a `success` body, polling under the id that body returned, and every other answer ends in the error alert |
| AnalyzePage.Submitted | src/pages/AnalyzePage.jsx:47-84 | a started analysis has a zero counter, the new interval as the only one running, both spinners on, no result and the processing status; the error alert turns both spinners off and leaves result and status cleared; the no-file alert changes nothing |
| AnalyzePage.FreshAnalysisSurvivesFirstTick | src/pages/AnalyzePage.jsx:69-127 | the first tick after a started analysis can neither time out nor stop on errors; a response that neither completes nor fails keeps both spinners on, and a failed request keeps the processing status |
| GdprPage.CompletedStatus | src/pages/GDPRPage.jsx:142-146 | the status set on a database hit reports the job and the GDPR step completed, keeps the file name, and fills the progress bar |
| GdprPage.Submit | src/pages/GDPRPage.jsx:61-126 | without a file the alert is shown. Otherwise a `success` body with a result shows it at once with the completed status; a `success` body without one, or a refused trigger whose fallback status lookup succeeds, starts polling on the file's own processing id; every other answer ends in the error alert |
| GdprPage.LoadingAfterSubmit | src/pages/GDPRPage.jsx:69-124 | once `handleSubmit` has run with a file, `loading` stays on iff a poll was started |
| GdprPage.ImmediateResultMatchesPoll | src/pages/GDPRPage.jsx:104-111 | a result returned by the trigger is shown exactly as a database hit on a poll's tick would show it: same result, same completed status, spinner off |
| GdprPage.ProcessingStatus | src/pages/GDPRPage.jsx:71 | the status shown once a GDPR check is submitted reports the job and the GDPR step as processing, keeps the file name and carries no GDPR result |
| GdprPage.Submitted | src/pages/GDPRPage.jsx:61-126 | with a file, the earlier result is cleared and the processing status shown; a result returned at once is then stored with the completed status and the spinner off; a started poll has a zero count, the spinner on, no result and the processing status; the error alert clears result and status and turns the spinner off; without a file nothing changes |
| GdprPage.FreshPollHasNoStaleResult | src/pages/GDPRPage.jsx:70-194 | on the first tick of a poll started by a submission, nothing times out or stops on an exception, and unless that tick succeeds no result is stored, so no result from an earlier file survives |
| GdprPage.Stop | src/pages/GDPRPage.jsx:179-180 | stopping clears the interval and turns `loading` off |
| GdprPage.Tick | src/pages/GDPRPage.jsx:133-195 | a database hit means success with the database result. A GDPR result in the status body means success when the database lookup did not throw. Success happens in no other case. Polling continues iff there is no success, the counter is below 60, and the database threw, the status request failed, or the job is neither completed nor failed. At the 60th tick without success it stops with an error if the database or the status request threw, and with a timeout otherwise, even for a job that reports completed or failed. Below the budget a readable status body ends it as finished iff the job is completed and as failed iff it failed |
| GdprPage.CaughtError | src/pages/GDPRPage.jsx:188-194 | an exception continues polling below the budget and stops with an error at it, keeping the stored result |
| GdprPage.DbDecidesAlone | src/pages/GDPRPage.jsx:138-151 | a database hit or a throwing database lookup decides the tick whatever the status endpoint would say |
| GdprPage.ErrorsNeverStopEarly | src/pages/GDPRPage.jsx:157-164 | below 60 polls, neither a non-ok status nor an exception stops polling |
| GdprPage.AtBudgetEveryTickStops | src/pages/GDPRPage.jsx:178-182 | from the 60th poll on, every tick stops polling |
| GdprPage.EndedJobStops | src/pages/GDPRPage.jsx:184-187 | below the poll budget, a job that ended without a GDPR result stops polling: completed as finished, failed as failed |
| GdprPage.Run | src/pages/GDPRPage.jsx:133-195 | running ticks counts every tick performed and stops polling on the tick that ends it |
| GdprPage.PollBound | src/pages/GDPRPage.jsx:131 | whatever the backend answers, the GDPR poller stops by poll 60 |
| GdprPage.Classify | src/pages/GDPRPage.jsx:198-235 | after lower-casing: approve iff approve or approved; reject iff delete or reject; review iff review; a missing decision is unknown |
| GdprPage.ClassifyIgnoresCase | src/pages/GDPRPage.jsx:199 | a decision and its lower-cased form classify alike |
| GdprPage.Color | src/pages/GDPRPage.jsx:198-235 | every kind's colour is `#` followed by six lower-case hexadecimal digits |
| GdprPage.Label | src/pages/GDPRPage.jsx:198-235 | every kind has a non-empty label |
| GdprPage.CardDistinguishesKinds | src/pages/GDPRPage.jsx:198-235 | two kinds get the same colour, or the same label, only when they are the same kind |
| GdprPage.ShowsConfetti | src/pages/GDPRPage.jsx:35-41 | confetti fires exactly for a result the card classifies as approve whose decision is not spelt `approved` in any case |
| GdprPage.ConfettiOnlyOnApprove | src/pages/GDPRPage.jsx:36-41 | confetti implies the card shows approve; `approved` is an approval without confetti |
| GdprPage.MeterWidth | src/pages/GDPRPage.jsx:451-452 | the meter reads 100 iff the raw decision is exactly `approve`, 60 iff exactly `review`, otherwise 20 |
| GdprPage.MeterIsCaseSensitive | src/pages/GDPRPage.jsx:451-452 | `Approve` and `REVIEW` are recognised by the card but get the 20 % meter |
| GdprPage.MeterAgreesWithCard | src/pages/GDPRPage.jsx:451-452 | a meter above 20 % always agrees with the card's classification |
| GdprPage.AdvanceStep | src/pages/GDPRPage.jsx:27 | the animation step wraps from 3 back to 0 and otherwise advances by one |
| GdprPage.OnLoadingChange | src/pages/GDPRPage.jsx:23-33 | the step is kept while loading and reset to 0 when loading ends |
| GdprPage.StepCycles | src/pages/GDPRPage.jsx:26-28 | four advances return the animation to its starting step |
| GdprPage.ProgressPercent | src/pages/GDPRPage.jsx:398-403 | the percent is always 25, 50, 75 or 100: 100 once the GDPR step is completed, else 25 per step reached |
| SharingPage.AvailableUsers | src/pages/SharingPage.jsx:40 | no department or an unknown one gives no users; a known one gives its directory entry, whose ids are unique |
| SharingPage.AddUser | src/pages/SharingPage.jsx:48-52 | adding a selected id leaves the list unchanged, otherwise appends the user; the id set gains the user's id and ids stay unique |
| SharingPage.NotYetSelected | src/pages/SharingPage.jsx:56-58 | keeps, in department order, exactly the users whose id is not selected |
| SharingPage.AppendNotYetSelected | src/pages/SharingPage.jsx:59 | appending the unselected users covers every department user and keeps ids unique |
| SharingPage.FilterKeepsUniqueIds | src/pages/SharingPage.jsx:56-64 | dropping entries from a list with unique ids keeps them unique |
| SharingPage.AddAllUsers | src/pages/SharingPage.jsx:55-60 | the old selection is a prefix; the appended part is exactly the unselected users, in order; every user ends up selected; ids stay unique |
| SharingPage.AddAllUsersFromDepartment | src/pages/SharingPage.jsx:55-60 | after adding a department, every user of it is selected, the old selection is kept as a prefix, and ids stay unique |
| SharingPage.AddAllIdempotent | src/pages/SharingPage.jsx:55-60 | adding the same department twice equals adding it once |
| SharingPage.RemoveUser | src/pages/SharingPage.jsx:63-65 | removal drops exactly the entries with that id, keeps the others in order, and removes the id from the id set |
| SharingPage.RemoveKeepsUniqueIds | src/pages/SharingPage.jsx:64 | removal keeps ids unique |
| SharingPage.RemoveUndoesAdd | src/pages/SharingPage.jsx:48-65 | removing a just-added user restores the previous selection |
| SharingPage.ClearAllUsers | src/pages/SharingPage.jsx:68-70 | clearing leaves no selected id |
| SharingPage.Emails | src/pages/SharingPage.jsx:74 | the e-mails of the selection, one per user, in selection order |
| SharingPage.SharingEmails | src/pages/SharingPage.jsx:72-75 | no selection gives "", one user gives that user's e-mail, and the string always starts with the first user's e-mail |
| SharingPage.SharingEmailsFollowAdd | src/pages/SharingPage.jsx:73-76 | the e-mail string tracks the list: a new user appends ", " and the e-mail (just the e-mail on an empty list), a duplicate changes nothing, and clearing gives "" |
| SharingPage.Submit | src/pages/SharingPage.jsx:156-186 | a request is sent iff a department, a file and at least one user are chosen. An empty department is refused first, by the `required` select whose placeholder has the empty value (`SharingPage.jsx:305`, `:328-335`), then a missing file, then an empty selection. The request carries the file, department, selection, e-mail string and the first user's id |
| SharingPage.SubmitAfterAdd | src/pages/SharingPage.jsx:156-186 | a sent request's `userId` is always one of the selected users, so the `default-user` fallback is never sent. With a file and a department, adding any user makes the form send and puts that user among the recipients, and clearing the list makes it refuse. Without a department no recipient list gets the form sent |
| SharingPage.AfterSubmit | src/pages/SharingPage.jsx:195-209 | a successful answer with `needApproval` true awaits approval with the server's message or the default one; any other successful answer starts polling; a failure shows an error |
| SharingPage.LoadingAfter | src/pages/SharingPage.jsx:169-214 | after the trigger answers, `loading` stays raised iff the page awaits approval or starts polling, and is lowered iff it shows an error |
| SharingPage.SuccessKeepsFormLocked | src/pages/SharingPage.jsx:446-451 | the share button is disabled after the trigger iff the trigger succeeded or no file is chosen; a share parked for approval keeps the form locked |
| SharingPage.ShownStatus | src/pages/SharingPage.jsx:171-214 | the status shown is `pending_approval` exactly when the share awaits approval |
| SharingPage.Actions | src/pages/SharingPage.jsx:569-586 | approve and reject buttons are offered exactly for pending approvals |
| SharingPage.Approve | src/pages/SharingPage.jsx:99-111 | an approval is sent iff confirmed, for that approval's key and the admin |
| SharingPage.Reject | src/pages/SharingPage.jsx:123-137 | a rejection is sent iff a reason was entered that is not blank after trimming; the reason is sent as typed |
| SharingPage.BlankReasonRefused | src/pages/SharingPage.jsx:124-125 | a cancelled prompt or a reason of spaces sends nothing; a padded reason is sent untrimmed |
| SharingPage.PendingCount | src/pages/SharingPage.jsx:483 | the pending count is exactly the number of positions holding a pending approval; so it is at most the number of approvals and zero iff none is pending |
| SharingPage.Tick | src/pages/SharingPage.jsx:220-243 | an error leaves the poller unchanged; success iff a sharing result arrives; finished or failed iff the job ended without one; every stop clears the interval |
| SharingPage.Run | src/pages/SharingPage.jsx:220-243 | running ticks stops polling on the tick that ends it |
| SharingPage.NoPollBound | src/pages/SharingPage.jsx:219-244 | unfinished or failing answers keep the sharing poller running for ever |
| SharingPage.ErrorsNeverStop | src/pages/SharingPage.jsx:240-242 | any number of request errors leaves the poller exactly as it was |
| HomeStats.CountStatuses | src/pages/HomePage.jsx:38-49 | the four status counts add up to at most the number of documents, and to exactly that number when every status is known |
| HomeStats.CountStatusesExact | src/pages/HomePage.jsx:38-49 | each count is the number of positions holding a document with that status: completed, processing, failed, and pending or missing |
| HomeStats.StatusCountsPartition | src/pages/HomePage.jsx:39-48 | the four status classes are disjoint: their counts add up to the count of documents in any of them |
| HomeStats.Bump | src/pages/HomePage.jsx:55 | every existing key keeps its place; the list grows by one iff the key is new, and the new key goes last with count 1 |
| HomeStats.BumpCounts | src/pages/HomePage.jsx:55 | incrementing a department adds one to its count and to the total, and nothing else |
| HomeStats.BumpKeys | src/pages/HomePage.jsx:55 | incrementing adds the department to the keys and keeps keys unique and counts positive |
| HomeStats.Tally | src/pages/HomePage.jsx:52-56 | the tally holds each label exactly as often as it occurs, with unique keys and positive counts summing to the number of labels |
| HomeStats.DepartmentOf | src/pages/HomePage.jsx:54 | a non-empty department is kept; a missing or empty one becomes `Chưa phân loại`; the label is never empty |
| HomeStats.DepartmentLabels | src/pages/HomePage.jsx:54 | each document's department, or the fallback label when it has none |
| HomeStats.SumInsert | src/pages/HomePage.jsx:118-120 | inserting a bar into the sorted series adds its value to the total |
| HomeStats.SumSort | src/pages/HomePage.jsx:118-120 | sorting the department series keeps the total |
| HomeStats.DepartmentSeries | src/pages/HomePage.jsx:118-120 | department counts are ordered non-increasingly, sum to the number of documents, and are a permutation of the tally |
| HomeStats.MissingDepartmentCounted | src/pages/HomePage.jsx:54 | a document without department is counted under `Chưa phân loại` |
| HomeStats.HomeBucket | src/pages/HomePage.jsx:84-95 | after lower-casing a non-empty decision: approve/approved/allow, review/anonymize/`cần xem xét` and reject/delete/`từ chối` select the three buckets; anything else is not counted |
| HomeStats.HomeBucketIgnoresCase | src/pages/HomePage.jsx:86 | bucketing ignores letter case, including the Vietnamese labels |
| HomeStats.AliasSetsCompared | src/pages/HomePage.jsx:87-91 | every decision the GDPR page recognises lands in the matching dashboard bucket; `allow` and `anonymize` are counted on the dashboard but unknown on the GDPR page |
| HomeStats.GdprCounts | src/pages/HomePage.jsx:79-95 | the three bars, in order, are approved, needs review and rejected, each valued at the number of positions whose decision falls in that bucket; their sum is at most the number of documents with a decision |
| HomeStats.GdprCountsBounded | src/pages/HomePage.jsx:84-95 | each decided document falls in at most one bucket |
| HomeStats.PositiveBars | src/pages/HomePage.jsx:122-124 | dropping the empty bars leaves positive bars, in order, with no larger total |
| HomeStats.GdprSeries | src/pages/HomePage.jsx:122-124 | the series keeps, in order, exactly the buckets with a positive count, and its total is at most the number of documents |
| HomeStats.StatusSlices | src/pages/HomePage.jsx:44-116 | one slice per key of `statusCounts`, in its order (completed, processing, failed, pending); each slice carries the key's Vietnamese label and that key's count, and the four counts add up to the total |
| HomeStats.StatusSeries | src/pages/HomePage.jsx:110-116 | the series keeps, in order, exactly the statuses with a positive count |
| HomeStats.StatusSeriesShowsNonZero | src/pages/HomePage.jsx:110-116 | each status appears in the series iff its count is non-zero |
| HomeStats.RecentDocuments | src/pages/HomePage.jsx:98-100 | at most ten documents, newest first, all from the input; any document newer than a listed one is listed too |
| HomeStats.TopOfSortedIsNewest | src/pages/HomePage.jsx:98-100 | a prefix of the newest-first order holds every document newer than one of its entries |
| HomeStats.SumOfSubsequence | src/pages/HomePage.jsx:122-124 | dropping series entries never raises the total |
| HomeStats.ComputeStats | src/pages/HomePage.jsx:38-124 | the totals fit together: status counts and the GDPR series are bounded by the total, department counts sum to it and are sorted, chart series are non-zero, and the recent list is newest-first from the input |
| HomeStats.DocumentsOf | src/pages/HomePage.jsx:35 | an unsuccessful body, or one without data, gives no documents |
| HomeStats.FetchStatistics | src/pages/HomePage.jsx:28-153 | an unreadable response keeps the previous statistics; an unsuccessful body yields the statistics of an empty list; any body's total is the number of documents it carries |
| HomeStats.EmptyStats | src/pages/HomePage.jsx:28-153 | the statistics of an empty list have zero totals and empty status, department, GDPR and recent series |
| HomeStats.EmptyStatusSeries | src/pages/HomePage.jsx:101-115 | the status chart is empty iff the four counts add up to zero |
| FileSelector.ApplyFilter | src/components/FileSelector.jsx:26-56 | `for-gdpr` and `for-sharing` keep exactly the eligible rows, each as often as in the input, and drop every other row; any other filter keeps the list as is; filtering never adds rows |
| FileSelector.Visible | src/components/FileSelector.jsx:26-63 | the shown rows are exactly the filtered rows, newest first |
| FileSelector.SharingDecisionMatchesCard | src/components/FileSelector.jsx:46-49 | a decision makes a file shareable iff the GDPR page shows it as an approval or a review |
| FileSelector.PickersDisjoint | src/components/FileSelector.jsx:27-55 | no file is offered to both the GDPR and the sharing picker |
| FileSelector.ReadyForGdprNeedsNoAnalysis | src/components/FileSelector.jsx:31-38 | for well-formed rows, `for-gdpr` keeps exactly the non-empty result objects without a GDPR result, so a file with only a sharing result is offered |
| FileSelector.Load | src/components/FileSelector.jsx:13-72 | an unsuccessful body empties the list; a body with data shows the filtered, sorted rows; a failure or a successful body without data keeps the previous list and shows the error |
| FileSelector.LoadRecovers | src/components/FileSelector.jsx:13-72 | a load answering with an unsuccessful body or with data shows the same list whatever the picker held and whatever load failed before it; repeating a failing load changes nothing more |
| FileSelector.LastSegment | src/components/FileSelector.jsx:96 | the text after the last dot, dot-free, a suffix of the name, and the whole name when it has no dot |
| FileSelector.LastSegmentOfExtension | src/components/FileSelector.jsx:96 | the segment after an appended dot and extension is that extension |
| FileSelector.IconForExtension | src/components/FileSelector.jsx:97-110 | each extension group gets its icon, and exactly the other extensions get the default |
| FileSelector.FileIcon | src/components/FileSelector.jsx:94-111 | a missing or empty name gets the default icon; otherwise the lower-cased last segment decides |
| FileSelector.IconOfNamedFile | src/components/FileSelector.jsx:94-96 | a name's icon depends only on its lower-cased extension |
| FileSelector.IconIgnoresCase | src/components/FileSelector.jsx:96 | `report.PDF` gets the PDF icon |
| FileSelector.IconUsesLastDot | src/components/FileSelector.jsx:96 | only the last dot separates the extension |
| FileSelector.IconEdgeCases | src/components/FileSelector.jsx:95-96 | a dot-less name spelling an extension gets that icon; a trailing dot gets the default |
| AnalyzedFiles.Listed | src/components/AnalyzedFilesList.jsx:21-31 | exactly the completed entries with an analysis result, each as often as in the input, newest first |
| AnalyzedFiles.Load | src/components/AnalyzedFilesList.jsx:9-41 | a failed load keeps the previous list and shows the error; a successful one replaces the list and clears the error |
| AnalyzedFiles.RefreshForgetsPrevious | src/components/AnalyzedFilesList.jsx:33-34 | after a successful load the list does not depend on what was shown before |
| AnalyzedFiles.Refreshes | src/components/AnalyzedFilesList.jsx:9-49 | after at least one load (on mount, then each `refresh`) the spinner is off |
| AnalyzedFiles.LastBody | src/components/AnalyzedFilesList.jsx:9-41 | no entries exactly when every load failed; otherwise the entries of one of the answers |
| AnalyzedFiles.RefreshesShowLastBody | src/components/AnalyzedFilesList.jsx:9-49 | after any run of loads the list is what the last successful answer listed, or the starting list if every load failed; the error shows iff the last load failed |
| AnalyzedFiles.Preview | src/components/AnalyzedFilesList.jsx:150-151 | a summary of at most 150 characters is shown whole; a longer one as its first 150 characters followed by `...` |
| AnalyzedFiles.PreviewIdempotent | src/components/AnalyzedFilesList.jsx:150-151 | previewing a preview changes nothing |
| AnalyzedFiles.PreviewDistinguishes | src/components/AnalyzedFilesList.jsx:150-151 | two summaries share a preview iff both are long and agree on the first 150 characters, or they are equal |
| Config.BaseUrl | src/config.js:6-7 | a non-empty environment value wins; otherwise relative paths in development and the production URL elsewhere |
| Config.ApiUrl | src/config.js:32-37 | the URL starts with the base; a path with a leading slash is appended as is, any other path after one inserted slash |
| Config.ApiUrlSuffix | src/config.js:33-36 | the part after the base always starts with a slash and gives back the path |
| Config.ApiUrlNormalises | src/config.js:32-37 | a path without a leading slash gives the same URL as the path with one |
| Config.ApiUrlSingleSlash | src/config.js:36 | no doubled slash appears at the join unless the path itself starts with two |
| Config.DevelopmentUsesRelativePaths | src/config.js:5-7 | without an environment value, development URLs are the root-relative path itself, and production URLs start with the production host |
| Config.EndpointPath | src/config.js:12-28 | every endpoint path starts with a single slash |
| Config.EndpointAgreesWithApiUrl | src/config.js:12-37 | each of the ten prebuilt endpoint URLs equals `getApiUrl` on its path, written with or without the leading slash |
| Js.OrElse | src/pages/HomePage.jsx:54 | `s \|\| fallback` yields the string when it is non-empty and the fallback otherwise |
| Js.LowerChar | src/pages/GDPRPage.jsx:199 | a lower-cased character is never a capital, and a non-capital is unchanged |
| Js.Lower | src/pages/GDPRPage.jsx:199 | `toLowerCase` keeps the length and lower-cases character by character |
| Js.LowerIdempotent | src/pages/GDPRPage.jsx:199 | lower-casing twice equals lower-casing once |
| Js.Join | src/pages/SharingPage.jsx:74 | joining no strings gives "", joining one gives that string, and a join starts with its first string |
| Js.JoinAppend | src/pages/SharingPage.jsx:74 | joining one more string appends the separator and that string |
| Seqs.Filter | src/pages/HomePage.jsx:39 | `filter` keeps, in order, exactly the elements satisfying the predicate, each as often as in the input, and adds none |
| Seqs.CountIsIndices | src/pages/SharingPage.jsx:483 | `filter(p).length` is the number of positions whose entry satisfies `p` |
| Seqs.FilterAppend | src/pages/SharingPage.jsx:64 | filtering a concatenation is the concatenation of the filtered parts |
| Seqs.Take | src/pages/HomePage.jsx:100 | `slice(0, n)` keeps the first min(n, length) elements |
| Sorting.Insert | src/pages/HomePage.jsx:99 | inserting into a descending list keeps it descending and adds exactly that element |
| Sorting.SortDescending | src/pages/HomePage.jsx:99 | the sort result is descending by the key and a permutation of the input |
| Sorting.SortKeepsOrderedInput | src/pages/HomePage.jsx:99 | an input that is already in order is returned unchanged |

## Left out

- Rendering, styling and routing (`src/App.jsx`, `src/components/Navigation.jsx`, `vite.config.js`) are not modelled. The pages' JSX is modelled only where it decides something: the icons, labels and colours, the disabled states, the meter width and the `required` department select. Markup that only lays out data is left out.
- `src/components/FileDetailModal.jsx` only renders backend JSON.
- HTTP is abstracted as response datatypes: `fetch`, `response.ok` and `response.json()`. HTTP failure, an exception and unparsable JSON become one error case where the code treats them alike.
- `alert`, `confirm` and `prompt` are abstracted: their answers are parameters, and the alerts are not modelled.
- Console logging, including the every-15-polls progress log, is not modelled.
- Real timers are replaced by discrete ticks. `Run` feeds one response per tick, so two ticks whose requests overlap are not modelled. A tick already in flight when `clearInterval` runs is not modelled either.
- The GDPR and sharing pollers keep their interval in a local variable. Starting either of them twice would leave two intervals running. Only the analysis poller's single-interval discipline is modelled.
- Clearing the intervals on unmount is not modelled.
- The approvals list fetch and its five-second refresh are not modelled. The result of `POST /api/approvals/process` is not modelled either.
- The file picking of the analysis page (`handleFileChange`, `handleDrop`) is not modelled; `AnalyzePage.Submit` takes only whether a file is chosen. The upload's form fields are not modelled either.
- The refresh of the analysed-files list after a completed analysis (`AnalyzePage.jsx:123-125`) is not modelled as part of the poller; `AnalyzedFiles.Load` models the reload itself.
- The alert texts of the submit flows are not modelled, only which alert is shown.
- Date handling is left out because it depends on the clock and time zone: the last-seven-days series of `HomePage.jsx:59-76`, `formatDate` and locale formatting. Timestamps are abstract integers.
- A `created_at` that does not parse to a date is not modelled. JavaScript compares it as NaN, so the comparator's answer is unspecified for such rows.
- The `formatFileSize` variants, the confetti's `Math.random` and the animation timings need floating point or randomness.
- Js.Lower, Js.LowerChar: cover ASCII, the Latin-1 capitals and the Vietnamese letters U+1EA0..U+1EF9. That covers every literal the code compares against, but it does not cover all of Unicode's case mapping.
- AnalyzedFiles.Preview: lengths count Unicode scalar values. JavaScript counts UTF-16 code units, so `substring(0, 150)` differs for characters outside the Basic Multilingual Plane.
- HomeStats.DepartmentSeries: assumes the department object keeps insertion order. JavaScript moves integer-like keys (a department named "2") to the front before the sort runs. Counts and order by count are unaffected; only the order among equal counts can differ.
- Sorting.SortDescending: stability (equal keys keep their input order, as `Array.prototype.sort` guarantees) is stated only as "an already ordered input is unchanged", not for general inputs.
- A non-object `analysis_results` is not modelled. `FileSelector.AnalysisResults` records only the truthiness of `analysis` and `sharing`, the GDPR result and the key count. A truthy non-string `gdprDecision`, which would make `toLowerCase` throw, is not modelled either.
- A department name that is an `Object.prototype` property (such as `toString` or `constructor`) is not modelled. The recipient directory of `SharingPage.jsx` is a plain object, so such a lookup does not return a user list, but departments there come from a fixed select box.
- HomeStats.Tally: treats every department name as an ordinary key. `deptCounts[dept]` at `HomePage.jsx:55` reads an inherited property for a document whose department is, say, `constructor`. That property is a function, which is truthy, so `+ 1` turns the count into a string instead of starting it from 0.
- SharingPage.Tick: does not track `loading`, because the sharing poller never changes it; `SharingPage.LoadingAfter` gives its value once the trigger has answered.

=== FILE: analyze_page.dfy ===
/** The analysis page's status poller (`startStatusPolling` of
    `src/pages/AnalyzePage.jsx`) as a step function over discrete ticks, and its
    step-status icon. */
module AnalyzePage {
  import opened Js
  import opened Documents
  import opened Polling

  /** 300 polls of 2 s: ten minutes. */
  const MaxPolls: nat := 300
  /** A failed request stops polling once this many ticks have run. */
  const ErrorTickLimit: nat := 10

  /** What one tick's request produced: a status body, or a failure (fetch
      threw, HTTP status not ok, or the body was not JSON). */
  datatype Response = FetchError | Received(data: StatusData)

  /** Page state the poller reads and writes. */
  datatype Poller = Poller(
    pollCount: nat,
    timers: Timers,
    loading: bool,
    analyzing: bool,
    result: Option<Analysis>,
    status: Option<StatusData>)

  /** The analysis is done: a result is present and the step says `completed`. */
  predicate HasAnalysisResult(d: StatusData) {
    d.results.analysis.Some? && d.steps.analysis == Some("completed")
  }

  /** The analysis step or the whole job reports `failed`. */
  predicate ReportsFailure(d: StatusData) {
    d.steps.analysis == Some("failed") || d.status == Some("failed")
  }

  /** No request can end the tick without stopping. */
  predicate NonTerminal(resp: Response) {
    resp.Received? && !HasAnalysisResult(resp.data) && !ReportsFailure(resp.data)
  }

  /** The state every stopping branch leaves: interval cleared, handle null,
      spinners off. */
  predicate Stopped(p: Poller) {
    p.timers.handle.None? && !p.loading && !p.analyzing
  }

  function Stop(p: Poller): (r: Poller)
    ensures Stopped(r)
  {
    p.(timers := StopInterval(p.timers), loading := false, analyzing := false)
  }

  /** Starting a poll resets the counter and replaces any running interval by
      a new one, so at most one interval is ever active. */
  function StartPolling(p: Poller, newHandle: nat): (r: Poller)
    requires newHandle !in p.timers.running
    ensures r.pollCount == 0
    ensures r.timers.handle == Some(newHandle)
    ensures AtMostOneRunning(p.timers) ==> r.timers.running == {newHandle}
    ensures r.loading == p.loading && r.analyzing == p.analyzing && r.result == p.result
  {
    p.(pollCount := 0, timers := StartInterval(p.timers, newHandle))
  }

  /** One tick of the interval: count it, then look at the response. */
  function Tick(p: Poller, resp: Response): (r: (Poller, Exit<Analysis>))
    ensures r.0.pollCount == p.pollCount + 1
    ensures r.1.Success? <==> resp.Received? && HasAnalysisResult(resp.data)
    ensures r.1.Success? ==> r.1.result == resp.data.results.analysis.value && r.0.result == Some(r.1.result)
    ensures r.1.Failed? <==> resp.Received? && !HasAnalysisResult(resp.data) && ReportsFailure(resp.data)
    ensures r.1.Timeout? <==> NonTerminal(resp) && p.pollCount + 1 >= MaxPolls
    ensures r.1.ErrorStop? <==> resp.FetchError? && p.pollCount + 1 >= ErrorTickLimit
    ensures !r.1.Finished?
    ensures !r.1.Success? ==> r.0.result == p.result
    ensures resp.Received? ==> r.0.status == Some(resp.data)
    ensures resp.FetchError? ==> r.0.status == p.status
    ensures !r.1.Continue? ==> Stopped(r.0) && r.0.timers == StopInterval(p.timers)
    ensures r.1.Continue? ==> r.0.timers == p.timers && r.0.loading == p.loading && r.0.analyzing == p.analyzing
  {
    var counted := p.(pollCount := p.pollCount + 1);
    match resp
    case FetchError =>
      if counted.pollCount >= ErrorTickLimit then (Stop(counted), ErrorStop)
      else (counted, Continue)
    case Received(data) =>
      var seen := counted.(status := Some(data));
      if HasAnalysisResult(data) then
        (Stop(seen.(result := data.results.analysis)), Success(data.results.analysis.value))
      else if ReportsFailure(data) then (Stop(seen), Failed)
      else if seen.pollCount >= MaxPolls then (Stop(seen), Timeout)
      else (seen, Continue)
  }

  /** What `POST /api/document/process` led to: the request failed (it threw,
      its status was not ok, or its JSON did not parse), or a body came back. */
  datatype ProcessAnswer = ProcessFailed | ProcessBody(success: bool, processingId: Option<string>)

  /** What `handleSubmit` ends in: the no-file alert, an analysis being
      polled under the returned id (absent if the body has none), or the
      error alert. */
  datatype Submission = NoFileAlert | StartAnalysis(processingId: Option<string>) | ShowError

  /** The status shown while the analysis runs. */
  function ProcessingStatus(): (r: StatusData)
    ensures r.status == Some("processing") && r.steps.analysis == Some("processing")
    ensures !HasAnalysisResult(r) && !ReportsFailure(r)
  {
    StatusData(Some("processing"), Steps(Some("processing"), None, None), Results(None, None, None), None, None)
  }

  /** `handleSubmit`: a file is needed, and only a body with `success` starts
      the analysis. */
  function Submit(hasFile: bool, answer: ProcessAnswer): (r: Submission)
    ensures !hasFile ==> r == NoFileAlert
    ensures r.StartAnalysis? <==> hasFile && answer.ProcessBody? && answer.success
    ensures r.StartAnalysis? ==> r.processingId == answer.processingId
    ensures r.ShowError? <==> (hasFile && (answer.ProcessFailed? || !answer.success))
  {
    if !hasFile then NoFileAlert
    else
      match answer
      case ProcessFailed => ShowError
      case ProcessBody(success, processingId) =>
        if success then StartAnalysis(processingId) else ShowError
  }

  /** The page after `handleSubmit`: a started analysis has a fresh counter,
      one running interval, both spinners on and the processing status; the
      error alert turns both spinners off and clears result and status. */
  function Submitted(p: Poller, r: Submission, newHandle: nat): (q: Poller)
    requires r.StartAnalysis? ==> newHandle !in p.timers.running
    ensures r.NoFileAlert? ==> q == p
    ensures r.ShowError? ==>
              !q.loading && !q.analyzing && q.result.None? && q.status.None? && q.timers == p.timers
    ensures r.StartAnalysis? ==> (
              && q.pollCount == 0
              && q.timers.handle == Some(newHandle)
              && (AtMostOneRunning(p.timers) ==> q.timers.running == {newHandle})
              && q.loading && q.analyzing
              && q.result.None? && q.status == Some(ProcessingStatus()))
  {
    match r
    case NoFileAlert => p
    case ShowError => p.(loading := false, analyzing := false, result := None, status := None)
    case StartAnalysis(_) =>
      var started := p.(loading := true, analyzing := true, result := None, status := Some(ProcessingStatus()));
      StartPolling(started, newHandle)
  }

  /** A freshly started analysis can neither time out nor give up on errors
      on its first tick: only a completing or failing response stops it, and
      a response that does neither keeps both spinners on. */
  lemma FreshAnalysisSurvivesFirstTick(p: Poller, answer: ProcessAnswer, newHandle: nat, resp: Response)
    requires Submit(true, answer).StartAnalysis?
    requires newHandle !in p.timers.running
    ensures var t := Tick(Submitted(p, Submit(true, answer), newHandle), resp);
      && !t.1.Timeout? && !t.1.ErrorStop?
      && t.0.pollCount == 1
      && (NonTerminal(resp) ==> t.1.Continue? && t.0.loading && t.0.analyzing)
      && (resp.FetchError? ==> t.1.Continue? && t.0.status == Some(ProcessingStatus()))
  {
  }

  /** Feeds responses to ticks until one stops polling or the responses run
      out; returns the final state, how the last tick ended and how many ticks ran. */
  function Run(p: Poller, resps: seq<Response>): (r: (Poller, Exit<Analysis>, nat))
    ensures r.2 <= |resps|
    ensures r.0.pollCount == p.pollCount + r.2
    ensures r.1.Continue? ==> r.2 == |resps|
    ensures !r.1.Continue? ==> 1 <= r.2 && Stopped(r.0)
    decreases |resps|
  {
    if |resps| == 0 then (p, Continue, 0)
    else
      var (q, e) := Tick(p, resps[0]);
      if e.Continue? then
        var (q', e', n) := Run(q, resps[1..]);
        (q', e', n + 1)
      else (q, e, 1)
  }

  /** Once a tick stops polling, later responses are never looked at: the
      outcome is reported once and polling does not resume. */
  lemma {:induction false} RunIgnoresLaterResponses(p: Poller, a: seq<Response>, b: seq<Response>)
    requires !Run(p, a).1.Continue?
    ensures Run(p, a + b) == Run(p, a)
    decreases |a|
  {
    assert (a + b)[0] == a[0];
    assert (a + b)[1..] == a[1..] + b;
    var (q, e) := Tick(p, a[0]);
    if e.Continue? {
      RunIgnoresLaterResponses(q, a[1..], b);
    }
  }

  /** Responses after a run that is still polling simply continue it. */
  lemma {:induction false} RunContinues(p: Poller, a: seq<Response>, b: seq<Response>)
    requires Run(p, a).1.Continue?
    ensures Run(p, a + b).1 == Run(Run(p, a).0, b).1
    ensures Run(p, a + b).2 == |a| + Run(Run(p, a).0, b).2
    ensures Run(p, a + b).0 == Run(Run(p, a).0, b).0
    decreases |a|
  {
    if |a| > 0 {
      assert (a + b)[0] == a[0];
      assert (a + b)[1..] == a[1..] + b;
      var (q, e) := Tick(p, a[0]);
      RunContinues(q, a[1..], b);
    } else {
      assert a + b == b;
    }
  }

  /** The poll bound: whatever the backend answers, polling stops no later than
      tick 300 (every tick from the 300th on stops, and an error stops from the
      10th on). */
  lemma {:induction false} PollBound(p: Poller, resps: seq<Response>)
    requires p.pollCount < MaxPolls
    requires p.pollCount + |resps| >= MaxPolls
    ensures !Run(p, resps).1.Continue?
    ensures Run(p, resps).0.pollCount <= MaxPolls
    decreases |resps|
  {
    var (q, e) := Tick(p, resps[0]);
    if e.Continue? {
      assert q.pollCount < MaxPolls;
      PollBound(q, resps[1..]);
    }
  }

  /** Success is checked first: a completing response stops with success even
      on the tick where the poll budget runs out, and even if the job also
      reports `failed`. */
  lemma SuccessTakesPrecedence(p: Poller, d: StatusData)
    requires HasAnalysisResult(d)
    ensures Tick(p, Received(d)).1 == Success(d.results.analysis.value)
  {
  }

  /** A stub that completes on its n-th answer is done after at most n ticks. */
  lemma {:induction false} StopsByFirstCompletion(p: Poller, resps: seq<Response>, n: nat)
    requires 0 < n <= |resps|
    requires resps[n - 1].Received? && HasAnalysisResult(resps[n - 1].data)
    ensures !Run(p, resps).1.Continue?
    ensures Run(p, resps).2 <= n
    decreases n
  {
    var (q, e) := Tick(p, resps[0]);
    if e.Continue? {
      assert n > 1;
      StopsByFirstCompletion(q, resps[1..], n - 1);
    }
  }

  /** Ticks on non-terminal answers keep polling while under the budget. */
  lemma {:induction false} NonTerminalRunContinues(p: Poller, resps: seq<Response>)
    requires forall i :: 0 <= i < |resps| ==> NonTerminal(resps[i])
    requires p.pollCount + |resps| < MaxPolls
    ensures Run(p, resps).1.Continue?
    ensures Run(p, resps).0.timers == p.timers
    decreases |resps|
  {
    if |resps| > 0 {
      var (q, e) := Tick(p, resps[0]);
      NonTerminalRunContinues(q, resps[1..]);
    }
  }

  /** Requests failing on every tick are tolerated for nine ticks. */
  lemma {:induction false} EarlyErrorsTolerated(p: Poller, resps: seq<Response>)
    requires forall i :: 0 <= i < |resps| ==> resps[i].FetchError?
    requires p.pollCount + |resps| < ErrorTickLimit
    ensures Run(p, resps).1.Continue?
    decreases |resps|
  {
    if |resps| > 0 {
      var (q, e) := Tick(p, resps[0]);
      EarlyErrorsTolerated(q, resps[1..]);
    }
  }

  /** The error budget counts every tick, not consecutive errors: after nine
      or more good but unfinished answers, one failed request ends polling. */
  lemma ErrorBudgetCountsAllTicks(p: Poller, oks: seq<Response>)
    requires p.pollCount == 0
    requires forall i :: 0 <= i < |oks| ==> NonTerminal(oks[i])
    requires ErrorTickLimit - 1 <= |oks| < MaxPolls - 1
    ensures Run(p, oks + [FetchError]).1 == ErrorStop
    ensures Run(p, oks + [FetchError]).2 == |oks| + 1
  {
    NonTerminalRunContinues(p, oks);
    RunContinues(p, oks, [FetchError]);
  }

  /** Step-status icons: `getStatusIcon`. */
  datatype Icon = Done | InProgress | Error | Skipped | Waiting {
    /** The glyph the page renders. */
    function Glyph(): string {
      match this
      case Done => "✅"
      case InProgress => "🔄"
      case Error => "❌"
      case Skipped => "⏭️"
      case Waiting => "⏳"
    }
  }

  /** Four named statuses get their own icon; any other value, or none, waits. */
  function StatusIcon(stepStatus: Option<string>): (r: Icon)
    ensures r.Done? <==> stepStatus == Some("completed")
    ensures r.InProgress? <==> stepStatus == Some("processing")
    ensures r.Error? <==> stepStatus == Some("failed")
    ensures r.Skipped? <==> stepStatus == Some("skipped")
    ensures r.Waiting? <==> stepStatus !in {Some("completed"), Some("processing"), Some("failed"), Some("skipped")}
  {
    match stepStatus
    case Some("completed") => Done
    case Some("processing") => InProgress
    case Some("failed") => Error
    case Some("skipped") => Skipped
    case _ => Waiting
  }

  /** Different icons render different glyphs, so the glyph tells the
      reader which of the five cases a step is in. */
  lemma GlyphsDistinct(a: Icon, b: Icon)
    ensures a.Glyph() == b.Glyph() <==> a == b
  {
  }

  /** The text printed after the analysis step's icon. */
  function StepText(stepStatus: Option<string>): (r: string)
    ensures r == "Hoàn thành" <==> stepStatus == Some("completed")
    ensures r == "Đang xử lý" <==> stepStatus == Some("processing")
    ensures stepStatus !in {Some("completed"), Some("processing")} ==> r == "Chờ xử lý"
  {
    if stepStatus == Some("completed") then "Hoàn thành"
    else if stepStatus == Some("processing") then "Đang xử lý"
    else "Chờ xử lý"
  }

  /** Icon and text agree on finished and running steps; a failed or skipped
      step shows its own icon next to the waiting text. */
  lemma IconMatchesText(stepStatus: Option<string>)
    ensures StatusIcon(stepStatus).Done? <==> StepText(stepStatus) == "Hoàn thành"
    ensures StatusIcon(stepStatus).InProgress? <==> StepText(stepStatus) == "Đang xử lý"
    ensures StatusIcon(stepStatus).Error? ==> StepText(stepStatus) == "Chờ xử lý"
    ensures StatusIcon(stepStatus).Skipped? ==> StepText(stepStatus) == "Chờ xử lý"
  {
  }
}

=== FILE: analyzed_files.dfy ===
/** The list of analysed documents of `src/components/AnalyzedFilesList.jsx`:
    which status entries it lists, their newest-first order, how a load updates
    it, and the 150-character summary preview. */
module AnalyzedFiles {
  import opened Js
  import opened Seqs
  import opened Sorting
  import opened Documents

  /** An entry is listed when it has an analysis result and the job is `completed`. */
  predicate IsAnalyzed(d: StatusData) {
    d.results.analysis.Some? && d.status == Some("completed")
  }

  /** Sort key: `new Date(createdAt || 0)`. */
  function CreatedKey(d: StatusData): int {
    Timestamp(d.createdAt)
  }

  /** The listed entries, newest first. */
  function Listed(all: seq<StatusData>): (r: seq<StatusData>)
    ensures Descending(r, CreatedKey)
    ensures forall x :: x in r <==> x in all && IsAnalyzed(x)
    ensures multiset(r) == multiset(Filter(all, IsAnalyzed))
    ensures |r| <= |all|
  {
    var kept := Filter(all, IsAnalyzed);
    var r := SortDescending(kept, CreatedKey);
    assert forall x :: x in r <==> x in multiset(r);
    assert forall x :: x in kept <==> x in multiset(kept);
    r
  }

  /** What `GET /api/document/status` produced: a failure (network, HTTP
      status, a body that is not a JSON array), or the array of entries. */
  datatype Response = LoadThrew | LoadBody(entries: seq<StatusData>)

  /** Error text shown when loading fails. */
  const LoadError := "Không thể tải danh sách file đã phân tích"

  datatype FileList = FileList(files: seq<StatusData>, error: Option<string>, loading: bool)

  /** `loadAnalyzedFiles` (also the `refresh` handle): a failure keeps the
      previous list and shows the error; a body replaces the list and clears it. */
  function Load(l: FileList, resp: Response): (r: FileList)
    ensures !r.loading
    ensures r.error.None? <==> resp.LoadBody?
    ensures resp.LoadThrew? ==> r.files == l.files && r.error == Some(LoadError)
    ensures resp.LoadBody? ==> r.files == Listed(resp.entries)
  {
    match resp
    case LoadThrew => l.(error := Some(LoadError), loading := false)
    case LoadBody(entries) => FileList(Listed(entries), None, false)
  }

  /** A refresh depends only on the answer, not on what was listed before. */
  lemma RefreshForgetsPrevious(l1: FileList, l2: FileList, entries: seq<StatusData>)
    ensures Load(l1, LoadBody(entries)) == Load(l2, LoadBody(entries))
  {
  }

  /** Successive loads: the initial one and every `refresh` call, in order. */
  function Refreshes(l: FileList, resps: seq<Response>): (r: FileList)
    ensures |resps| > 0 ==> !r.loading
    decreases |resps|
  {
    if |resps| == 0 then l
    else Load(Refreshes(l, resps[..|resps| - 1]), resps[|resps| - 1])
  }

  /** The entries of the last answer that came back as a body, if any. */
  function LastBody(resps: seq<Response>): (r: Option<seq<StatusData>>)
    ensures r.None? <==> forall i :: 0 <= i < |resps| ==> resps[i].LoadThrew?
    ensures r.Some? ==> LoadBody(r.value) in resps
    decreases |resps|
  {
    if |resps| == 0 then None
    else if resps[|resps| - 1].LoadBody? then Some(resps[|resps| - 1].entries)
    else
      var init := resps[..|resps| - 1];
      var r := LastBody(init);
      assert forall i :: 0 <= i < |init| ==> init[i] == resps[i];
      r
  }

  /** After any run of loads the list is what the last successful answer
      listed, or the starting list when every load failed; the error shows
      exactly when the last load failed. */
  lemma {:induction false} RefreshesShowLastBody(l: FileList, resps: seq<Response>)
    ensures LastBody(resps).None? ==> Refreshes(l, resps).files == l.files
    ensures LastBody(resps).Some? ==> Refreshes(l, resps).files == Listed(LastBody(resps).value)
    ensures |resps| > 0 ==> (Refreshes(l, resps).error.None? <==> resps[|resps| - 1].LoadBody?)
    decreases |resps|
  {
    if |resps| > 0 {
      RefreshesShowLastBody(l, resps[..|resps| - 1]);
    }
  }

  /** Preview length: `substring(0, 150)`. */
  const PreviewLength: nat := 150

  /** The summary preview: the first 150 characters, followed by `...` when
      the summary is longer. */
  function Preview(summary: string): (r: string)
    ensures |summary| <= PreviewLength ==> r == summary
    ensures |summary| > PreviewLength ==> |r| == PreviewLength + 3 && r[PreviewLength..] == "..."
    ensures |r| <= PreviewLength + 3
    ensures |summary| > PreviewLength ==> r[..PreviewLength] == summary[..PreviewLength]
  {
    if |summary| <= PreviewLength then summary
    else summary[..PreviewLength] + "..."
  }

  /** The preview of a preview is the same preview. */
  lemma PreviewIdempotent(summary: string)
    ensures Preview(Preview(summary)) == Preview(summary)
  {
    if |summary| > PreviewLength {
      var p := Preview(summary);
      assert p[..PreviewLength] == summary[..PreviewLength];
    }
  }

  /** Two summaries share a preview exactly when they agree on the visible
      part and are both short or both long. */
  lemma PreviewDistinguishes(a: string, b: string)
    ensures Preview(a) == Preview(b) <==> (
      if |a| <= PreviewLength || |b| <= PreviewLength then a == b
      else a[..PreviewLength] == b[..PreviewLength])
  {
    if |a| > PreviewLength && |b| > PreviewLength && Preview(a) == Preview(b) {
      assert Preview(a)[..PreviewLength] == Preview(b)[..PreviewLength];
    }
  }
}

=== FILE: config.dfy ===
/** API base-URL selection and URL builders of `src/config.js`. */
module Config {
  import opened Js

  const ProductionUrl: string := "https://ai-agent-doc-manage.onrender.com"

  /** `VITE_API_BASE_URL || (isDevelopment ? '' : ProductionUrl)`: a set, non-empty
      environment value wins; otherwise development uses relative paths. */
  function BaseUrl(envBase: Option<string>, isDevelopment: bool): (r: string)
    ensures Truthy(envBase) ==> r == envBase.value
    ensures !Truthy(envBase) && isDevelopment ==> r == ""
    ensures !Truthy(envBase) && !isDevelopment ==> r == ProductionUrl
  {
    OrElse(envBase, if isDevelopment then "" else ProductionUrl)
  }

  /** `getApiUrl(path)`: the base followed by the path, with one '/' inserted
      when the path does not start with one. */
  function ApiUrl(base: string, path: string): (r: string)
    ensures StartsWith(r, base)
    ensures StartsWith(path, "/") ==> r == base + path
    ensures !StartsWith(path, "/") ==> r == base + "/" + path
    ensures |r| == |base| + |path| + (if StartsWith(path, "/") then 0 else 1)
  {
    if StartsWith(path, "/") then base + path else base + "/" + path
  }

  /** The part after the base always starts with '/', and dropping that '/'
      gives the path back when the caller did not write one. */
  lemma ApiUrlSuffix(base: string, path: string)
    ensures StartsWith(ApiUrl(base, path)[|base|..], "/")
    ensures !StartsWith(path, "/") ==> ApiUrl(base, path)[|base| + 1..] == path
    ensures StartsWith(path, "/") ==> ApiUrl(base, path)[|base|..] == path
  {
    var r := ApiUrl(base, path);
    if StartsWith(path, "/") {
      assert r[|base|..] == path;
    } else {
      assert r[|base|..] == "/" + path;
      assert r[|base| + 1..] == path;
    }
  }

  /** Writing the leading '/' or leaving it out gives the same URL. */
  lemma ApiUrlNormalises(base: string, path: string)
    requires !StartsWith(path, "/")
    ensures ApiUrl(base, path) == ApiUrl(base, "/" + path)
  {
    assert StartsWith("/" + path, "/");
    assert base + "/" + path == base + ("/" + path);
  }

  /** No path yields a doubled slash at the join unless the path itself starts
      with two. */
  lemma ApiUrlSingleSlash(base: string, path: string)
    requires !StartsWith(path, "//")
    ensures !StartsWith(ApiUrl(base, path)[|base|..], "//")
  {
    var r := ApiUrl(base, path);
    if StartsWith(path, "/") {
      assert r[|base|..] == path;
    } else {
      assert r[|base|..] == "/" + path;
      if |path| > 0 {
        assert ("/" + path)[1] == path[0] != '/';
      }
    }
  }

  /** Without an environment value, development joins every path onto the
      empty base: the result is a root-relative path for the dev proxy.
      Production URLs always start with the production host. */
  lemma DevelopmentUsesRelativePaths(path: string)
    ensures ApiUrl(BaseUrl(None, true), path) == (if StartsWith(path, "/") then path else "/" + path)
    ensures StartsWith(ApiUrl(BaseUrl(None, false), path), ProductionUrl)
  {
    assert BaseUrl(None, true) == "";
    assert "" + path == path;
    assert "" + "/" + path == "/" + path;
  }

  /** The entries of `API_CONFIG.endpoints`; the two taking an id carry it. */
  datatype Endpoint =
    | Process
    | Status(id: string)
    | GetAllCompleted
    | TriggerGdpr
    | TriggerSharing
    | GetFromPostgres(id: string)
    | GdprList
    | GdprById(id: string)
    | ApprovalsList
    | ApprovalsProcess

  /** The fixed path of an endpoint, after the base. Every one starts with a
      single '/'. */
  function EndpointPath(e: Endpoint): (r: string)
    ensures |r| >= 2 && StartsWith(r, "/") && r[1] != '/'
  {
    match e
    case Process => "/api/document/process"
    case Status(id) => "/api/document/status/" + id
    case GetAllCompleted => "/api/document/get-all-completed"
    case TriggerGdpr => "/api/document/trigger-gdpr"
    case TriggerSharing => "/api/document/trigger-sharing"
    case GetFromPostgres(id) => "/api/document/get-from-postgres/" + id
    case GdprList => "/gdpr"
    case GdprById(id) => "/gdpr/" + id
    case ApprovalsList => "/api/approvals/list"
    case ApprovalsProcess => "/api/approvals/process"
  }

  /** The prebuilt endpoint URL: the base followed by the endpoint's path. */
  function EndpointUrl(base: string, e: Endpoint): string {
    base + EndpointPath(e)
  }

  /** Every prebuilt endpoint equals `getApiUrl` on its path, whether the
      caller writes the leading '/' or not. */
  lemma EndpointAgreesWithApiUrl(base: string, e: Endpoint)
    ensures EndpointUrl(base, e) == ApiUrl(base, EndpointPath(e))
    ensures EndpointUrl(base, e) == ApiUrl(base, EndpointPath(e)[1..])
  {
    var path := EndpointPath(e);
    var rel := path[1..];
    assert rel[0] == path[1];
    assert !StartsWith(rel, "/");
    assert "/" + rel == path;
    ApiUrlNormalises(base, rel);
  }
}

=== FILE: documents.dfy ===
/** The parts of the backend's JSON that the dashboard inspects.  Payloads are
    free-form JSON; only the fields a decision reads are kept, and `Some` on a
    payload means the field is present and truthy. */
module Documents {
  import opened Js

  /** `results.analysis`: only the summary and category are ever read. */
  datatype Analysis = Analysis(summary: Option<string>, category: Option<string>)

  /** A GDPR result object; the decision is a free-form, inconsistently cased string. */
  datatype GdprResult = GdprResult(gdprDecision: Option<string>)

  /** `results.sharing`: displayed, never inspected. */
  datatype SharingResult = SharingResult(sharingEmails: seq<string>)

  /** `steps` of a status response: per-step status strings. */
  datatype Steps = Steps(analysis: Option<string>, gdpr: Option<string>, sharing: Option<string>)

  /** `results` of a status response: per-step result payloads. */
  datatype Results = Results(analysis: Option<Analysis>, gdpr: Option<GdprResult>, sharing: Option<SharingResult>)

  /** The body of `GET /api/document/status/{id}` (one entry of the list form
      too): overall status, step statuses, results and creation time. */
  datatype StatusData = StatusData(
    status: Option<string>,
    steps: Steps,
    results: Results,
    fileName: Option<string>,
    createdAt: Option<int>)

  /** A file picked in the file selector: the processing job it came from and
      its name. */
  datatype SelectedFile = SelectedFile(processingId: string, fileName: Option<string>)
}

=== FILE: file_selector.dfy ===
/** The file picker of `src/components/FileSelector.jsx`: which completed
    documents each page may pick from, their newest-first order, how a load
    updates the list, and the icon chosen from a file name's extension. */
module FileSelector {
  import opened Js
  import opened Seqs
  import opened Sorting
  import opened Documents
  import GdprPage

  /** The `analysis_results` object of a stored document, as far as the filters
      look at it: whether `analysis` and `sharing` are truthy, the GDPR result,
      and how many keys the object has. */
  datatype AnalysisResults = AnalysisResults(
    analysis: bool,
    gdpr: Option<GdprResult>,
    sharing: bool,
    keyCount: nat)

  /** A row of `GET /api/document/get-all-completed`. */
  datatype FileRow = FileRow(
    id: string,
    fileName: Option<string>,
    analysisResults: Option<AnalysisResults>,
    createdAt: Option<int>)

  /** An object holding a truthy field has that key. */
  predicate WellFormed(f: FileRow) {
    f.analysisResults.Some? ==>
      (f.analysisResults.value.analysis || f.analysisResults.value.gdpr.Some? || f.analysisResults.value.sharing)
      ==> f.analysisResults.value.keyCount > 0
  }

  /** The `for-gdpr` filter: analysed (or at least some results present) and no
      GDPR result yet. */
  predicate ReadyForGdpr(f: FileRow) {
    && f.analysisResults.Some?
    && f.analysisResults.value.gdpr.None?
    && (f.analysisResults.value.analysis || f.analysisResults.value.keyCount > 0)
  }

  /** The decisions that let a document be shared: `approve`, `approved` or
      `review`, in any letter case. */
  predicate SharingDecision(decision: Option<string>) {
    decision.Some? && Lower(decision.value) in {"approve", "approved", "review"}
  }

  /** The `for-sharing` filter: a GDPR result whose decision allows sharing, and
      no sharing result yet. */
  predicate ReadyForSharing(f: FileRow) {
    && f.analysisResults.Some?
    && f.analysisResults.value.gdpr.Some?
    && SharingDecision(f.analysisResults.value.gdpr.value.gdprDecision)
    && !f.analysisResults.value.sharing
  }

  /** Sort key: `new Date(created_at || 0)`. */
  function CreatedKey(f: FileRow): int {
    Timestamp(f.createdAt)
  }

  /** The `filter` prop: the two named filters, anything else keeps every row. */
  function ApplyFilter(filter: Option<string>, rows: seq<FileRow>): (r: seq<FileRow>)
    ensures multiset(r) <= multiset(rows)
    ensures filter == Some("for-gdpr") ==> forall x :: x in r <==> x in rows && ReadyForGdpr(x)
    ensures filter == Some("for-gdpr") ==>
              forall x :: multiset(r)[x] == if ReadyForGdpr(x) then multiset(rows)[x] else 0
    ensures filter == Some("for-sharing") ==> forall x :: x in r <==> x in rows && ReadyForSharing(x)
    ensures filter == Some("for-sharing") ==>
              forall x :: multiset(r)[x] == if ReadyForSharing(x) then multiset(rows)[x] else 0
    ensures filter !in {Some("for-gdpr"), Some("for-sharing")} ==> r == rows
  {
    if filter == Some("for-gdpr") then Filter(rows, ReadyForGdpr)
    else if filter == Some("for-sharing") then Filter(rows, ReadyForSharing)
    else rows
  }

  /** The rows the picker shows: filtered, then newest first. */
  function Visible(filter: Option<string>, rows: seq<FileRow>): (r: seq<FileRow>)
    ensures Descending(r, CreatedKey)
    ensures multiset(r) == multiset(ApplyFilter(filter, rows))
    ensures forall x :: x in r ==> x in rows
    ensures filter == Some("for-gdpr") ==> forall x :: x in r <==> x in rows && ReadyForGdpr(x)
    ensures filter == Some("for-sharing") ==> forall x :: x in r <==> x in rows && ReadyForSharing(x)
    ensures filter !in {Some("for-gdpr"), Some("for-sharing")} ==> multiset(r) == multiset(rows)
  {
    var kept := ApplyFilter(filter, rows);
    var r := SortDescending(kept, CreatedKey);
    assert forall x :: x in r <==> x in multiset(r);
    assert forall x :: x in kept <==> x in multiset(kept);
    assert forall x :: x in rows <==> x in multiset(rows);
    r
  }

  /** The sharing filter accepts exactly the decisions the GDPR page shows as
      an approval or a review. */
  lemma SharingDecisionMatchesCard(decision: Option<string>)
    ensures SharingDecision(decision) <==> GdprPage.Classify(decision) in {GdprPage.Approve, GdprPage.Review}
  {
  }

  /** The two pages never offer the same document: a document waiting for its
      GDPR check has no GDPR result, one ready to share has. */
  lemma PickersDisjoint(f: FileRow)
    ensures !(ReadyForGdpr(f) && ReadyForSharing(f))
  {
  }

  /** With a well-formed object, `for-gdpr` keeps exactly the non-empty result
      objects without a GDPR result: analysis is not required, so a document
      whose only result is `sharing` is offered as well. */
  lemma ReadyForGdprNeedsNoAnalysis(f: FileRow)
    requires WellFormed(f)
    ensures ReadyForGdpr(f) <==> (
      && f.analysisResults.Some?
      && f.analysisResults.value.keyCount > 0
      && f.analysisResults.value.gdpr.None?)
    ensures ReadyForGdpr(FileRow(f.id, f.fileName, Some(AnalysisResults(false, None, true, 1)), f.createdAt))
  {
  }

  /** What `GET /api/document/get-all-completed?limit=100` produced: the request
      failed (network, HTTP status, JSON), or a body with `success` and `data`. */
  datatype Response = LoadThrew | LoadBody(success: bool, data: Option<seq<FileRow>>)

  /** Error text shown when loading fails. */
  const LoadError := "Không thể tải danh sách file"

  datatype Picker = Picker(files: seq<FileRow>, error: Option<string>, loading: bool)

  /** `loadFiles`: an unsuccessful body empties the list; a successful body
      without `data` throws when it is filtered or sorted, which, like a failed
      request, keeps the previous list and shows the error. */
  function Load(p: Picker, filter: Option<string>, resp: Response): (r: Picker)
    ensures !r.loading
    ensures r.error.None? <==> resp.LoadBody? && (!resp.success || resp.data.Some?)
    ensures r.error.Some? ==> r.error == Some(LoadError) && r.files == p.files
    ensures resp.LoadBody? && !resp.success ==> r.files == []
    ensures resp.LoadBody? && resp.success && resp.data.Some? ==> r.files == Visible(filter, resp.data.value)
  {
    match resp
    case LoadThrew => p.(error := Some(LoadError), loading := false)
    case LoadBody(success, data) =>
      if !success then Picker([], None, false)
      else if data.None? then p.(error := Some(LoadError), loading := false)
      else Picker(Visible(filter, data.value), None, false)
  }

  /** A load that answers with a usable body decides the list alone: it
      shows the same rows whatever the picker held and whatever failed
      before, while a failing load repeated changes nothing more. */
  lemma LoadRecovers(p: Picker, q: Picker, filter: Option<string>, bad: Response, good: Response)
    ensures good.LoadBody? && (!good.success || good.data.Some?) ==>
              Load(p, filter, good) == Load(q, filter, good)
              && Load(Load(p, filter, bad), filter, good) == Load(p, filter, good)
    ensures Load(p, filter, bad).error.Some? ==>
              Load(Load(p, filter, bad), filter, bad) == Load(p, filter, bad)
  {
  }

  /** Icons by extension: `getFileIcon`. */
  datatype Icon = Pdf | Word | Sheet | Slides | Image | Generic {
    function Glyph(): string {
      match this
      case Pdf => "📕"
      case Word => "📘"
      case Sheet => "📗"
      case Slides => "📙"
      case Image => "🖼️"
      case Generic => "📄"
    }
  }

  /** `name.split('.').pop()`: the text after the last dot, or the whole name
      when there is none. */
  function LastSegment(name: string): (r: string)
    ensures '.' !in r
    ensures |r| <= |name| && r == name[|name| - |r|..]
    ensures |r| < |name| ==> name[|name| - |r| - 1] == '.'
    ensures '.' !in name ==> r == name
    decreases |name|
  {
    if |name| == 0 then ""
    else if name[|name| - 1] == '.' then ""
    else
      var rest := LastSegment(name[..|name| - 1]);
      LastSegmentStep(name, rest);
      rest + [name[|name| - 1]]
  }

  /** One step of `LastSegment`: a last character that is not a dot extends
      the segment of the shorter name. */
  lemma LastSegmentStep(name: string, rest: string)
    requires |name| > 0 && name[|name| - 1] != '.'
    requires var init := name[..|name| - 1];
      && '.' !in rest
      && |rest| <= |init| && rest == init[|init| - |rest|..]
      && (|rest| < |init| ==> init[|init| - |rest| - 1] == '.')
      && ('.' !in init ==> rest == init)
    ensures var r := rest + [name[|name| - 1]];
      && '.' !in r
      && |r| <= |name| && r == name[|name| - |r|..]
      && (|r| < |name| ==> name[|name| - |r| - 1] == '.')
      && ('.' !in name ==> r == name)
  {
    var init := name[..|name| - 1];
    assert init[|init| - |rest|..] + [name[|name| - 1]] == name[|name| - |rest| - 1..];
    if '.' !in name {
      assert '.' !in init by {
        forall i | 0 <= i < |init| ensures init[i] != '.' {
          assert init[i] == name[i];
        }
      }
      assert init + [name[|name| - 1]] == name;
    }
  }

  /** The segment after the dot that is added last. */
  lemma {:induction false} LastSegmentOfExtension(stem: string, ext: string)
    requires '.' !in ext
    ensures LastSegment(stem + "." + ext) == ext
    decreases |ext|
  {
    var name := stem + "." + ext;
    if |ext| == 0 {
      assert name[|name| - 1] == '.';
    } else {
      var init := ext[..|ext| - 1];
      assert name[..|name| - 1] == stem + "." + init;
      assert name[|name| - 1] == ext[|ext| - 1];
      assert init + [ext[|ext| - 1]] == ext;
      LastSegmentOfExtension(stem, init);
    }
  }

  function IconForExtension(ext: string): (r: Icon)
    ensures r.Pdf? <==> ext == "pdf"
    ensures r.Word? <==> ext in {"doc", "docx"}
    ensures r.Sheet? <==> ext in {"xls", "xlsx"}
    ensures r.Slides? <==> ext in {"ppt", "pptx"}
    ensures r.Image? <==> ext in {"jpg", "jpeg", "png", "gif"}
  {
    if ext == "pdf" then Pdf
    else if ext == "doc" || ext == "docx" then Word
    else if ext == "xls" || ext == "xlsx" then Sheet
    else if ext == "ppt" || ext == "pptx" then Slides
    else if ext == "jpg" || ext == "jpeg" || ext == "png" || ext == "gif" then Image
    else Generic
  }

  /** A missing or empty name gets the generic icon; otherwise the lower-cased
      last segment decides. */
  function FileIcon(fileName: Option<string>): (r: Icon)
    ensures !Truthy(fileName) ==> r == Generic
    ensures Truthy(fileName) ==> r == IconForExtension(Lower(LastSegment(fileName.value)))
  {
    if !Truthy(fileName) then Generic
    else IconForExtension(Lower(LastSegment(fileName.value)))
  }

  /** The extension decides regardless of case and of dots in the stem. */
  lemma IconOfNamedFile(stem: string, ext: string)
    requires '.' !in ext
    ensures FileIcon(Some(stem + "." + ext)) == IconForExtension(Lower(ext))
  {
    LastSegmentOfExtension(stem, ext);
  }

  /** An upper-case extension counts. */
  lemma IconIgnoresCase()
    ensures FileIcon(Some("report.PDF")) == Pdf
  {
    assert "report" + "." + "PDF" == "report.PDF";
    IconOfNamedFile("report", "PDF");
    var l := Lower("PDF");
    assert l[0] == 'p' && l[1] == 'd' && l[2] == 'f';
    assert l == "pdf";
  }

  /** Only the last dot separates the extension. */
  lemma IconUsesLastDot()
    ensures FileIcon(Some("q3.data.xlsx")) == Sheet
  {
    assert "q3.data" + "." + "xlsx" == "q3.data.xlsx";
    IconOfNamedFile("q3.data", "xlsx");
    assert Lower("xlsx") == "xlsx";
  }

  /** A name without a dot is its own extension, and a trailing dot leaves an
      empty one. */
  lemma IconEdgeCases()
    ensures FileIcon(Some("pdf")) == Pdf
    ensures FileIcon(Some("notes.")) == Generic
  {
    assert Lower("pdf") == "pdf";
    assert "notes" + "." + "" == "notes.";
    IconOfNamedFile("notes", "");
  }
}

=== FILE: gdpr_page.dfy ===
/** The GDPR page of `src/pages/GDPRPage.jsx`: its status poller (database
    first, then the status endpoint, at most 60 polls), the decision
    classification, the processing-step animation and the compliance meter. */
module GdprPage {
  import opened Js
  import opened Documents
  import opened Polling

  /** 60 polls of 2 s: two minutes. */
  const MaxPolls: nat := 60

  /** Result of `GET /api/document/get-from-postgres/{id}`: the request or its
      JSON threw, the status was not ok, or a body came back. */
  datatype DbLookup =
    | DbThrew
    | DbNotOk
    | DbBody(success: bool, gdpr: Option<GdprResult>, fileName: Option<string>)

  /** Result of `GET /api/document/status/{id}`. */
  datatype StatusLookup = StatusThrew | StatusNotOk | StatusBody(data: StatusData)

  /** Page state the poller reads and writes. */
  datatype Poller = Poller(
    pollCount: nat,
    polling: bool,
    loading: bool,
    result: Option<GdprResult>,
    status: Option<StatusData>)

  /** The database already holds the GDPR result. */
  predicate DbHit(db: DbLookup) {
    db.DbBody? && db.success && db.gdpr.Some?
  }

  /** The status shown when the database lookup hits. */
  function CompletedStatus(fileName: Option<string>): (r: StatusData)
    ensures r.status == Some("completed") && r.steps.gdpr == Some("completed")
    ensures r.fileName == fileName
    ensures forall s: Step :: ProgressPercent(s, r.steps.gdpr) == 100
  {
    StatusData(Some("completed"), Steps(None, Some("completed"), None), Results(None, None, None), fileName, None)
  }

  function Stop(p: Poller): (r: Poller)
    ensures !r.polling && !r.loading
  {
    p.(polling := false, loading := false)
  }

  /** One tick: count it, try the database, and only then the status endpoint. */
  function Tick(p: Poller, db: DbLookup, st: StatusLookup): (r: (Poller, Exit<GdprResult>))
    ensures r.0.pollCount == p.pollCount + 1
    ensures DbHit(db) ==> r.1 == Success(db.gdpr.value) && r.0.result == db.gdpr
    ensures (!DbHit(db) && !db.DbThrew? && st.StatusBody? && st.data.results.gdpr.Some?) ==>
              (r.1 == Success(st.data.results.gdpr.value) && r.0.result == st.data.results.gdpr)
    ensures r.1.Success? <==> DbHit(db) || (!db.DbThrew? && st.StatusBody? && st.data.results.gdpr.Some?)
    ensures !r.1.Success? ==> r.0.result == p.result
    ensures r.1.Continue? <==> (
              && !r.1.Success?
              && p.pollCount + 1 < MaxPolls
              && (db.DbThrew? || !st.StatusBody? || st.data.status !in {Some("completed"), Some("failed")}))
    ensures r.1.Continue? ==> r.0.polling == p.polling && r.0.loading == p.loading
    ensures !r.1.Continue? ==> !r.0.polling && !r.0.loading
    ensures !r.1.Success? && p.pollCount + 1 >= MaxPolls ==>
              r.1 == (if db.DbThrew? || st.StatusThrew? then ErrorStop else Timeout)
    ensures !r.1.Success? && p.pollCount + 1 < MaxPolls && !db.DbThrew? && st.StatusBody? ==>
              (r.1 == Finished <==> st.data.status == Some("completed"))
              && (r.1 == Failed <==> st.data.status == Some("failed"))
  {
    var counted := p.(pollCount := p.pollCount + 1);
    if db.DbThrew? then
      CaughtError(counted)
    else if DbHit(db) then
      (Stop(counted.(result := db.gdpr, status := Some(CompletedStatus(db.fileName)))), Success(db.gdpr.value))
    else
      match st
      case StatusThrew => CaughtError(counted)
      case StatusNotOk =>
        if counted.pollCount >= MaxPolls then (Stop(counted), Timeout) else (counted, Continue)
      case StatusBody(data) =>
        var seen := counted.(status := Some(data));
        if data.results.gdpr.Some? then
          (Stop(seen.(result := data.results.gdpr)), Success(data.results.gdpr.value))
        else if seen.pollCount >= MaxPolls then (Stop(seen), Timeout)
        else if data.status == Some("completed") then (Stop(seen), Finished)
        else if data.status == Some("failed") then (Stop(seen), Failed)
        else (seen, Continue)
  }

  /** The catch block: an exception stops polling only once the budget is spent. */
  function CaughtError(counted: Poller): (r: (Poller, Exit<GdprResult>))
    ensures r.0.result == counted.result && r.0.pollCount == counted.pollCount
    ensures r.1.Continue? <==> counted.pollCount < MaxPolls
    ensures r.1.Continue? ==> r.0 == counted
    ensures !r.1.Continue? ==> r.1 == ErrorStop && !r.0.polling && !r.0.loading
  {
    if counted.pollCount >= MaxPolls then (Stop(counted), ErrorStop) else (counted, Continue)
  }

  /** What `POST /api/document/trigger-gdpr` led to: the request or its JSON
      threw; the status was not ok, after which the page asks the status
      endpoint instead (`fallbackOk`: that request succeeded and its JSON
      parsed); or a body came back. */
  datatype TriggerAnswer =
    | TriggerThrew
    | TriggerNotOk(fallbackOk: bool)
    | TriggerBody(success: bool, gdprResult: Option<GdprResult>)

  /** What `handleSubmit` ends in: the no-file alert, a result shown at once
      (with the completed status), polling on the file's job, or the error
      alert. */
  datatype Submission =
    | NoFileAlert
    | ShowResult(result: GdprResult, status: StatusData)
    | StartPolling(processingId: string)
    | ShowError

  /** `handleSubmit`: a file is needed; a successful trigger either carries
      the result or starts polling, and so does a readable status lookup
      after a refused trigger; every other answer ends in the error alert. */
  function Submit(file: Option<SelectedFile>, answer: TriggerAnswer): (r: Submission)
    ensures file.None? ==> r == NoFileAlert
    ensures r.ShowResult? <==> file.Some? && answer.TriggerBody? && answer.success && answer.gdprResult.Some?
    ensures r.ShowResult? ==> r.result == answer.gdprResult.value && r.status == CompletedStatus(file.value.fileName)
    ensures r.StartPolling? <==> (file.Some? && (
              || (answer.TriggerNotOk? && answer.fallbackOk)
              || (answer.TriggerBody? && answer.success && answer.gdprResult.None?)))
    ensures r.StartPolling? ==> r.processingId == file.value.processingId
    ensures r.ShowError? <==> (file.Some? && (
              || answer.TriggerThrew?
              || (answer.TriggerNotOk? && !answer.fallbackOk)
              || (answer.TriggerBody? && !answer.success)))
  {
    match file
    case None => NoFileAlert
    case Some(f) =>
      match answer
      case TriggerThrew => ShowError
      case TriggerNotOk(fallbackOk) => if fallbackOk then StartPolling(f.processingId) else ShowError
      case TriggerBody(success, gdprResult) =>
        if !success then ShowError
        else if gdprResult.Some? then ShowResult(gdprResult.value, CompletedStatus(f.fileName))
        else StartPolling(f.processingId)
  }

  /** `loading` once `handleSubmit` has finished: it was switched on after the
      file check and stays on only while a poll runs. */
  function LoadingAfterSubmit(before: bool, r: Submission): (loading: bool)
    ensures r.NoFileAlert? ==> loading == before
    ensures !r.NoFileAlert? ==> (loading <==> r.StartPolling?)
  {
    match r
    case NoFileAlert => before
    case ShowResult(_, _) => false
    case StartPolling(_) => true
    case ShowError => false
  }

  /** The status shown from the moment a GDPR check is submitted. */
  function ProcessingStatus(fileName: Option<string>): (r: StatusData)
    ensures r.status == Some("processing") && r.steps.gdpr == Some("processing")
    ensures r.fileName == fileName && r.results.gdpr.None?
  {
    StatusData(Some("processing"), Steps(None, Some("processing"), None), Results(None, None, None), fileName, None)
  }

  /** The page after `handleSubmit`: with a file, the old result is cleared
      and the processing status shown before the request; then a result
      returned at once is shown with the completed status, a poll starts
      from a zero count with the spinner on, and the error alert clears the
      status.  Without a file nothing changes. */
  function Submitted(p: Poller, file: Option<SelectedFile>, answer: TriggerAnswer): (q: Poller)
    ensures file.None? ==> q == p
    ensures Submit(file, answer).ShowResult? ==>
              q.result == Some(Submit(file, answer).result) && q.status == Some(Submit(file, answer).status)
              && !q.loading && q.polling == p.polling
    ensures Submit(file, answer).StartPolling? ==>
              q.pollCount == 0 && q.polling && q.loading
              && q.result.None? && q.status == Some(ProcessingStatus(file.value.fileName))
    ensures Submit(file, answer).ShowError? ==>
              q.result.None? && q.status.None? && !q.loading && q.polling == p.polling
    ensures q.loading == LoadingAfterSubmit(p.loading, Submit(file, answer))
  {
    match file
    case None => p
    case Some(f) =>
      var started := p.(loading := true, result := None, status := Some(ProcessingStatus(f.fileName)));
      match Submit(file, answer)
      case ShowResult(result, status) => started.(result := Some(result), status := Some(status), loading := false)
      case StartPolling(_) => started.(pollCount := 0, polling := true)
      case ShowError => started.(loading := false, status := None)
      case NoFileAlert => p
  }

  /** A poll started by a submission holds no earlier result: until a tick
      succeeds the stored result stays empty, and the first tick can neither
      time out nor stop on an exception. */
  lemma FreshPollHasNoStaleResult(p: Poller, file: SelectedFile, answer: TriggerAnswer, db: DbLookup, st: StatusLookup)
    requires Submit(Some(file), answer).StartPolling?
    ensures var t := Tick(Submitted(p, Some(file), answer), db, st);
      && t.0.pollCount == 1
      && !t.1.Timeout? && !t.1.ErrorStop?
      && (t.1.Success? || t.0.result.None?)
  {
  }

  /** A result that the trigger returns at once is shown exactly as a
      database hit would show it on the first tick of a poll: same result,
      same completed status, spinner off. */
  lemma ImmediateResultMatchesPoll(file: SelectedFile, g: GdprResult, p: Poller, st: StatusLookup)
    ensures var r := Submit(Some(file), TriggerBody(true, Some(g)));
      var t := Tick(p, DbBody(true, Some(g), file.fileName), st);
      && r.ShowResult? && t.1 == Success(r.result)
      && t.0.status == Some(r.status) && t.0.result == Some(r.result)
      && !LoadingAfterSubmit(true, r) && !t.0.loading
  {
  }

  /** A database hit, or a failing database request, decides the tick on its
      own: the status endpoint is not consulted. */
  lemma DbDecidesAlone(p: Poller, db: DbLookup, st1: StatusLookup, st2: StatusLookup)
    requires DbHit(db) || db.DbThrew?
    ensures Tick(p, db, st1) == Tick(p, db, st2)
  {
  }

  /** Under the budget, neither a non-ok status nor an exception stops polling. */
  lemma ErrorsNeverStopEarly(p: Poller, db: DbLookup, st: StatusLookup)
    requires p.pollCount + 1 < MaxPolls
    requires !DbHit(db)
    requires db.DbThrew? || st.StatusThrew? || st.StatusNotOk?
    ensures Tick(p, db, st).1 == Continue
  {
  }

  /** At the budget, every path without a result stops polling: the 60th tick
      and every later one end it. */
  lemma AtBudgetEveryTickStops(p: Poller, db: DbLookup, st: StatusLookup)
    requires p.pollCount + 1 >= MaxPolls
    ensures !Tick(p, db, st).1.Continue?
  {
  }

  /** Under the budget, a job that ended without a GDPR result stops polling:
      `failed` as a failure, `completed` as finished. */
  lemma EndedJobStops(p: Poller, db: DbLookup, d: StatusData)
    requires p.pollCount + 1 < MaxPolls
    requires !DbHit(db) && !db.DbThrew? && d.results.gdpr.None?
    ensures d.status == Some("completed") ==> Tick(p, db, StatusBody(d)).1 == Finished
    ensures d.status == Some("failed") ==> Tick(p, db, StatusBody(d)).1 == Failed
  {
  }

  /** Feeds one (database, status) answer pair per tick until polling stops. */
  function Run(p: Poller, answers: seq<(DbLookup, StatusLookup)>): (r: (Poller, Exit<GdprResult>, nat))
    ensures r.2 <= |answers|
    ensures r.0.pollCount == p.pollCount + r.2
    ensures r.1.Continue? ==> r.2 == |answers|
    ensures !r.1.Continue? ==> 1 <= r.2 && !r.0.polling && !r.0.loading
    decreases |answers|
  {
    if |answers| == 0 then (p, Continue, 0)
    else
      var (q, e) := Tick(p, answers[0].0, answers[0].1);
      if e.Continue? then
        var (q', e', n) := Run(q, answers[1..]);
        (q', e', n + 1)
      else (q, e, 1)
  }

  /** The poll bound: whatever the backend answers, the GDPR poller stops no
      later than tick 60. */
  lemma {:induction false} PollBound(p: Poller, answers: seq<(DbLookup, StatusLookup)>)
    requires p.pollCount < MaxPolls
    requires p.pollCount + |answers| >= MaxPolls
    ensures !Run(p, answers).1.Continue?
    ensures Run(p, answers).0.pollCount <= MaxPolls
    decreases |answers|
  {
    var (q, e) := Tick(p, answers[0].0, answers[0].1);
    if e.Continue? {
      PollBound(q, answers[1..]);
    }
  }

  /** Kinds of GDPR decision the result card distinguishes. */
  datatype DecisionKind = Approve | Reject | Review | Unknown

  /** `getGDPRDecisionInfo`: case-insensitive; approve/approved approve,
      delete/reject reject, review reviews, anything else (also a missing
      decision) is unknown. */
  function Classify(decision: Option<string>): (r: DecisionKind)
    ensures decision.None? ==> r == Unknown
    ensures r == Approve <==> decision.Some? && Lower(decision.value) in {"approve", "approved"}
    ensures r == Reject <==> decision.Some? && Lower(decision.value) in {"delete", "reject"}
    ensures r == Review <==> decision.Some? && Lower(decision.value) == "review"
  {
    if decision.None? then Unknown
    else
      var d := Lower(decision.value);
      if d == "approve" || d == "approved" then Approve
      else if d == "delete" || d == "reject" then Reject
      else if d == "review" then Review
      else Unknown
  }

  /** The classification ignores letter case. */
  lemma ClassifyIgnoresCase(s: string)
    ensures Classify(Some(s)) == Classify(Some(Lower(s)))
  {
    LowerIdempotent(s);
  }

  /** Colour shown for each kind of decision. */
  function Color(k: DecisionKind): (r: string)
    ensures |r| == 7 && r[0] == '#'
    ensures forall i :: 1 <= i < |r| ==> r[i] in "0123456789abcdef"
  {
    match k
    case Approve => "#10b981"
    case Reject => "#ef4444"
    case Review => "#f59e0b"
    case Unknown => "#6b7280"
  }

  /** Label shown for each kind of decision. */
  function Label(k: DecisionKind): (r: string)
    ensures |r| > 0
  {
    match k
    case Approve => "PHÊ DUYỆT"
    case Reject => "TỪ CHỐI"
    case Review => "CẦN XEM XÉT"
    case Unknown => "KHÔNG XÁC ĐỊNH"
  }

  /** The card never shows two kinds alike: colour and label each tell the
      kind apart. */
  lemma CardDistinguishesKinds(a: DecisionKind, b: DecisionKind)
    ensures Color(a) == Color(b) <==> a == b
    ensures Label(a) == Label(b) <==> a == b
  {
  }

  /** The confetti effect fires when the new result's decision lower-cases to
      `approve`: an approving card whose decision is not spelt `approved`. */
  function ShowsConfetti(result: Option<GdprResult>): (r: bool)
    ensures r <==> result.Some? && Classify(result.value.gdprDecision) == Approve
                   && Lower(result.value.gdprDecision.value) != "approved"
  {
    result.Some? && result.value.gdprDecision.Some? && Lower(result.value.gdprDecision.value) == "approve"
  }

  /** Confetti implies the card says approve; `approved` approves without confetti. */
  lemma ConfettiOnlyOnApprove(result: Option<GdprResult>)
    ensures ShowsConfetti(result) ==> Classify(result.value.gdprDecision) == Approve
    ensures !ShowsConfetti(Some(GdprResult(Some("approved"))))
    ensures Classify(Some("approved")) == Approve
  {
    assert Lower("approved") == "approved";
  }

  /** The compliance meter compares the raw decision, case-sensitively:
      `approve` fills 100 %, `review` 60 %, everything else 20 %. */
  function MeterWidth(decision: Option<string>): (r: nat)
    ensures r in {100, 60, 20}
    ensures r == 100 <==> decision == Some("approve")
    ensures r == 60 <==> decision == Some("review")
  {
    if decision == Some("approve") then 100
    else if decision == Some("review") then 60
    else 20
  }

  /** The meter and the card disagree on capitalised decisions: `Approve` is an
      approval on the card but gets the 20 % meter. */
  lemma MeterIsCaseSensitive()
    ensures Classify(Some("Approve")) == Approve
    ensures MeterWidth(Some("Approve")) == 20
    ensures Classify(Some("REVIEW")) == Review
    ensures MeterWidth(Some("REVIEW")) == 20
  {
    assert Lower("Approve") == "approve";
    assert Lower("REVIEW") == "review";
  }

  /** A meter reading above 20 % always agrees with the card. */
  lemma MeterAgreesWithCard(decision: Option<string>)
    ensures MeterWidth(decision) == 100 ==> Classify(decision) == Approve
    ensures MeterWidth(decision) == 60 ==> Classify(decision) == Review
  {
    assert Lower("approve") == "approve";
    assert Lower("review") == "review";
  }

  /** The animated step index of the processing timeline. */
  type Step = s: nat | s < 4

  /** Every 800 ms while loading: `(prev + 1) % 4`. */
  function AdvanceStep(s: Step): (r: Step)
    ensures r == if s == 3 then 0 else s + 1
  {
    (s + 1) % 4
  }

  /** When `loading` changes: kept while loading, reset to 0 otherwise. */
  function OnLoadingChange(s: Step, loading: bool): (r: Step)
    ensures !loading ==> r == 0
    ensures loading ==> r == s
  {
    if loading then s else 0
  }

  /** Four advances bring the animation back to where it was. */
  lemma StepCycles(s: Step)
    ensures AdvanceStep(AdvanceStep(AdvanceStep(AdvanceStep(s)))) == s
  {
  }

  /** The progress percentage: 100 once the GDPR step is completed, otherwise
      25 per step reached. */
  function ProgressPercent(s: Step, gdprStep: Option<string>): (r: nat)
    ensures r in {25, 50, 75, 100}
    ensures gdprStep == Some("completed") ==> r == 100
    ensures gdprStep != Some("completed") ==> r == 25 * (s + 1)
  {
    if gdprStep == Some("completed") then 100 else (s + 1) * 25
  }
}

=== FILE: home_stats.dfy ===
/** The aggregation half of `fetchStatistics` in `src/pages/HomePage.jsx`:
    status counts, department counts, GDPR decision buckets, the ten most
    recent documents, and the chart series built from them. */
module HomeStats {
  import opened Js
  import opened Seqs
  import opened Sorting
  import GdprPage

  /** One document of `GET /gdpr`: only the fields the dashboard reads.
      `gdprDecision` is `gdpr_result?.gdpr_decision`. */
  datatype Doc = Doc(
    status: Option<string>,
    department: Option<string>,
    createdAt: Option<int>,
    gdprDecision: Option<string>)

  /** Label used for documents without a department. */
  const Unclassified: string := "Chưa phân loại"

  /** The most documents the dashboard lists as recent. */
  const RecentLimit: nat := 10

  function DocTime(d: Doc): int {
    Timestamp(d.createdAt)
  }

  predicate IsCompleted(d: Doc) { d.status == Some("completed") }
  predicate IsProcessing(d: Doc) { d.status == Some("processing") }
  predicate IsFailed(d: Doc) { d.status == Some("failed") }
  /** `doc.status === 'pending' || !doc.status`. */
  predicate IsPending(d: Doc) { d.status == Some("pending") || !Truthy(d.status) }

  datatype StatusCounts = StatusCounts(completed: nat, processing: nat, failed: nat, pending: nat) {
    function Total(): nat { completed + processing + failed + pending }
  }

  /** The four status counts.  A document is in at most one of them, so
      they never add up to more than the number of documents. */
  function CountStatuses(docs: seq<Doc>): (r: StatusCounts)
    ensures r.Total() <= |docs|
    ensures (forall i :: 0 <= i < |docs| ==> HasKnownStatus(docs[i])) ==> r.Total() == |docs|
  {
    var r := StatusCounts(Count(docs, IsCompleted), Count(docs, IsProcessing), Count(docs, IsFailed), Count(docs, IsPending));
    StatusCountsPartition(docs);
    r
  }

  /** Each of the four counts is the number of positions holding a document
      with that status. */
  lemma CountStatusesExact(docs: seq<Doc>)
    ensures CountStatuses(docs) == StatusCounts(
              |Indices(docs, IsCompleted)|, |Indices(docs, IsProcessing)|,
              |Indices(docs, IsFailed)|, |Indices(docs, IsPending)|)
  {
    CountIsIndices(docs, IsCompleted);
    CountIsIndices(docs, IsProcessing);
    CountIsIndices(docs, IsFailed);
    CountIsIndices(docs, IsPending);
  }

  predicate HasKnownStatus(d: Doc) {
    IsCompleted(d) || IsProcessing(d) || IsFailed(d) || IsPending(d)
  }

  /** Every counted document has exactly one of the four statuses, so the
      four counts add up to the number of documents with a known status. */
  lemma StatusCountsPartition(docs: seq<Doc>)
    ensures Count(docs, IsCompleted) + Count(docs, IsProcessing) + Count(docs, IsFailed) + Count(docs, IsPending)
            == Count(docs, HasKnownStatus)
    ensures Count(docs, HasKnownStatus) <= |docs|
    ensures (forall i :: 0 <= i < |docs| ==> HasKnownStatus(docs[i])) ==> Count(docs, HasKnownStatus) == |docs|
  {
    StatusCountsSum(docs);
  }

  lemma {:induction false} StatusCountsSum(docs: seq<Doc>)
    ensures Count(docs, IsCompleted) + Count(docs, IsProcessing) + Count(docs, IsFailed) + Count(docs, IsPending)
            == Count(docs, HasKnownStatus)
    decreases |docs|
  {
    if |docs| > 0 {
      StatusCountsSum(docs[1..]);
      CountStep(docs, IsCompleted);
      CountStep(docs, IsProcessing);
      CountStep(docs, IsFailed);
      CountStep(docs, IsPending);
      CountStep(docs, HasKnownStatus);
    }
  }

  /** A department-chart bar (also used for GDPR buckets): name and count. */
  datatype Bar = Bar(name: string, value: nat)

  function Sum(bars: seq<Bar>): nat
    decreases |bars|
  {
    if |bars| == 0 then 0 else bars[0].value + Sum(bars[1..])
  }

  /** Total count recorded under `name`. */
  function ValueOf(bars: seq<Bar>, name: string): nat
    decreases |bars|
  {
    if |bars| == 0 then 0
    else (if bars[0].name == name then bars[0].value else 0) + ValueOf(bars[1..], name)
  }

  predicate UniqueNames(bars: seq<Bar>) {
    forall i, j :: 0 <= i < j < |bars| ==> bars[i].name != bars[j].name
  }

  predicate AllPositive(bars: seq<Bar>) {
    forall i :: 0 <= i < |bars| ==> bars[i].value > 0
  }

  function Names(bars: seq<Bar>): set<string> {
    set i | 0 <= i < |bars| :: bars[i].name
  }

  /** How the bar functions see a bar put in front of a list. */
  lemma ConsSum(b: Bar, rest: seq<Bar>)
    ensures Sum([b] + rest) == b.value + Sum(rest)
    ensures forall k :: ValueOf([b] + rest, k) == (if b.name == k then b.value else 0) + ValueOf(rest, k)
  {
    assert ([b] + rest)[1..] == rest;
  }

  lemma ConsNames(b: Bar, rest: seq<Bar>)
    ensures Names([b] + rest) == {b.name} + Names(rest)
  {
    var r := [b] + rest;
    forall x | x in Names(r) ensures x in {b.name} + Names(rest) {
      var i :| 0 <= i < |r| && r[i].name == x;
      if i > 0 {
        assert r[i] == rest[i - 1];
      }
    }
    forall x | x in Names(rest) ensures x in Names(r) {
      var i :| 0 <= i < |rest| && rest[i].name == x;
      assert r[i + 1] == rest[i];
    }
    assert r[0] == b;
  }

  lemma ConsPositive(b: Bar, rest: seq<Bar>)
    ensures AllPositive([b] + rest) <==> b.value > 0 && AllPositive(rest)
  {
    var r := [b] + rest;
    if AllPositive(r) {
      forall i | 0 <= i < |rest| ensures rest[i].value > 0 {
        assert rest[i] == r[i + 1];
      }
      assert r[0] == b;
    }
  }

  lemma ConsUnique(b: Bar, rest: seq<Bar>)
    ensures UniqueNames([b] + rest) <==> b.name !in Names(rest) && UniqueNames(rest)
  {
    var r := [b] + rest;
    if UniqueNames(r) {
      forall i, j | 0 <= i < j < |rest| ensures rest[i].name != rest[j].name {
        assert rest[i] == r[i + 1] && rest[j] == r[j + 1];
      }
      forall k | 0 <= k < |rest| ensures rest[k].name != b.name {
        assert r[0] == b && r[k + 1] == rest[k];
      }
    }
    if b.name !in Names(rest) && UniqueNames(rest) {
      forall i, j | 0 <= i < j < |r| ensures r[i].name != r[j].name {
        if i == 0 {
          assert r[j] == rest[j - 1];
        } else {
          assert r[i] == rest[i - 1] && r[j] == rest[j - 1];
        }
      }
    }
  }

  /** `counts[name] = (counts[name] || 0) + 1` on an insertion-ordered object:
      an existing key keeps its place, a new key goes last. */
  function Bump(bars: seq<Bar>, name: string): (r: seq<Bar>)
    ensures |bars| <= |r| <= |bars| + 1
    ensures forall i :: 0 <= i < |bars| ==> r[i].name == bars[i].name
    ensures |r| == |bars| + 1 <==> forall i :: 0 <= i < |bars| ==> bars[i].name != name
    ensures |r| == |bars| + 1 ==> r[|bars|] == Bar(name, 1)
    decreases |bars|
  {
    if |bars| == 0 then [Bar(name, 1)]
    else if bars[0].name == name then [Bar(name, bars[0].value + 1)] + bars[1..]
    else
      var rest := Bump(bars[1..], name);
      assert forall i :: 1 <= i < |bars| ==> bars[1..][i - 1] == bars[i];
      [bars[0]] + rest
  }

  /** Bumping adds one under `name` and nowhere else. */
  lemma {:induction false} BumpCounts(bars: seq<Bar>, name: string)
    ensures Sum(Bump(bars, name)) == Sum(bars) + 1
    ensures forall k :: ValueOf(Bump(bars, name), k) == ValueOf(bars, k) + (if k == name then 1 else 0)
    decreases |bars|
  {
    if |bars| == 0 {
      ConsSum(Bar(name, 1), []);
      assert [Bar(name, 1)] + [] == [Bar(name, 1)];
    } else {
      assert bars == [bars[0]] + bars[1..];
      ConsSum(bars[0], bars[1..]);
      if bars[0].name == name {
        ConsSum(Bar(name, bars[0].value + 1), bars[1..]);
      } else {
        BumpCounts(bars[1..], name);
        ConsSum(bars[0], Bump(bars[1..], name));
      }
    }
  }

  /** Bumping adds `name` to the keys and keeps them unique and positive. */
  lemma BumpKeys(bars: seq<Bar>, name: string)
    ensures Names(Bump(bars, name)) == Names(bars) + {name}
    ensures UniqueNames(bars) ==> UniqueNames(Bump(bars, name))
    ensures AllPositive(bars) ==> AllPositive(Bump(bars, name))
  {
    BumpNames(bars, name);
    BumpUnique(bars, name);
    BumpPositive(bars, name);
  }

  lemma {:induction false} BumpNames(bars: seq<Bar>, name: string)
    ensures Names(Bump(bars, name)) == Names(bars) + {name}
    decreases |bars|
  {
    if |bars| == 0 {
      assert [Bar(name, 1)] + [] == [Bar(name, 1)];
      ConsNames(Bar(name, 1), []);
    } else {
      assert bars == [bars[0]] + bars[1..];
      ConsNames(bars[0], bars[1..]);
      if bars[0].name == name {
        ConsNames(Bar(name, bars[0].value + 1), bars[1..]);
      } else {
        BumpNames(bars[1..], name);
        ConsNames(bars[0], Bump(bars[1..], name));
      }
    }
  }

  lemma {:induction false} BumpUnique(bars: seq<Bar>, name: string)
    ensures UniqueNames(bars) ==> UniqueNames(Bump(bars, name))
    decreases |bars|
  {
    if |bars| == 0 {
      assert [Bar(name, 1)] + [] == [Bar(name, 1)];
      ConsUnique(Bar(name, 1), []);
    } else if UniqueNames(bars) {
      assert bars == [bars[0]] + bars[1..];
      ConsUnique(bars[0], bars[1..]);
      if bars[0].name == name {
        ConsUnique(Bar(name, bars[0].value + 1), bars[1..]);
      } else {
        BumpUnique(bars[1..], name);
        BumpNames(bars[1..], name);
        ConsUnique(bars[0], Bump(bars[1..], name));
      }
    }
  }

  lemma {:induction false} BumpPositive(bars: seq<Bar>, name: string)
    ensures AllPositive(bars) ==> AllPositive(Bump(bars, name))
    decreases |bars|
  {
    if |bars| == 0 {
      assert [Bar(name, 1)] + [] == [Bar(name, 1)];
      ConsPositive(Bar(name, 1), []);
    } else if AllPositive(bars) {
      assert bars == [bars[0]] + bars[1..];
      ConsPositive(bars[0], bars[1..]);
      if bars[0].name == name {
        ConsPositive(Bar(name, bars[0].value + 1), bars[1..]);
      } else {
        BumpPositive(bars[1..], name);
        ConsPositive(bars[0], Bump(bars[1..], name));
      }
    }
  }

  /** The per-department tally, in order of first appearance. */
  function Tally(labels: seq<string>): (r: seq<Bar>)
    ensures Sum(r) == |labels|
    ensures forall k :: ValueOf(r, k) == multiset(labels)[k]
    ensures UniqueNames(r)
    ensures AllPositive(r)
    decreases |labels|
  {
    if |labels| == 0 then []
    else
      var init := labels[..|labels| - 1];
      assert labels == init + [labels[|labels| - 1]];
      BumpCounts(Tally(init), labels[|labels| - 1]);
      BumpKeys(Tally(init), labels[|labels| - 1]);
      Bump(Tally(init), labels[|labels| - 1])
  }

  /** `doc.department || 'Chưa phân loại'`. */
  function DepartmentOf(d: Doc): (r: string)
    ensures Truthy(d.department) ==> r == d.department.value
    ensures !Truthy(d.department) ==> r == Unclassified
    ensures r != ""
  {
    OrElse(d.department, Unclassified)
  }

  function DepartmentLabels(docs: seq<Doc>): (r: seq<string>)
    ensures |r| == |docs|
    ensures forall i :: 0 <= i < |docs| ==> r[i] == DepartmentOf(docs[i])
  {
    seq(|docs|, i requires 0 <= i < |docs| => DepartmentOf(docs[i]))
  }

  function BarValue(b: Bar): int { b.value }

  /** Sorting keeps the total. */
  lemma {:induction false} SumInsert(x: Bar, bars: seq<Bar>)
    requires Descending(bars, BarValue)
    ensures Sum(Insert(x, bars, BarValue)) == x.value + Sum(bars)
    decreases |bars|
  {
    if |bars| > 0 && BarValue(bars[0]) > BarValue(x) {
      assert Descending(bars[1..], BarValue);
      SumInsert(x, bars[1..]);
      var r := Insert(x, bars, BarValue);
      assert r[1..] == Insert(x, bars[1..], BarValue);
    } else if |bars| > 0 {
      var r := [x] + bars;
      assert r[1..] == bars;
    }
  }

  lemma {:induction false} SumSort(bars: seq<Bar>)
    ensures Sum(SortDescending(bars, BarValue)) == Sum(bars)
    decreases |bars|
  {
    if |bars| > 0 {
      SumSort(bars[1..]);
      SumInsert(bars[0], SortDescending(bars[1..], BarValue));
    }
  }

  /** The department series: one bar per department, most documents first;
      the counts add up to the number of documents. */
  function DepartmentSeries(docs: seq<Doc>): (r: seq<Bar>)
    ensures Descending(r, BarValue)
    ensures Sum(r) == |docs|
    ensures multiset(r) == multiset(Tally(DepartmentLabels(docs)))
    ensures forall k :: ValueOf(Tally(DepartmentLabels(docs)), k) == multiset(DepartmentLabels(docs))[k]
  {
    var tally := Tally(DepartmentLabels(docs));
    SumSort(tally);
    SortDescending(tally, BarValue)
  }

  /** A document without a department is counted under the fallback label. */
  lemma MissingDepartmentCounted(docs: seq<Doc>, i: nat)
    requires i < |docs| && !Truthy(docs[i].department)
    ensures ValueOf(Tally(DepartmentLabels(docs)), Unclassified) > 0
  {
    assert DepartmentLabels(docs)[i] == Unclassified;
    assert Unclassified in multiset(DepartmentLabels(docs));
  }

  /** The dashboard's GDPR buckets. */
  datatype Bucket = Approved | NeedsReview | Rejected

  /** Case-insensitive bucketing of a present, non-empty decision; decisions
      outside the three alias sets are not counted. */
  function HomeBucket(decision: Option<string>): (r: Option<Bucket>)
    ensures r.Some? ==> Truthy(decision)
    ensures r == Some(Approved) <==> Truthy(decision) && Lower(decision.value) in {"approve", "approved", "allow"}
    ensures r == Some(NeedsReview) <==> Truthy(decision) && Lower(decision.value) in {"review", "anonymize", "cần xem xét"}
    ensures r == Some(Rejected) <==> Truthy(decision) && Lower(decision.value) in {"reject", "delete", "từ chối"}
  {
    if !Truthy(decision) then None
    else
      var d := Lower(decision.value);
      if d == "approve" || d == "approved" || d == "allow" then Some(Approved)
      else if d == "review" || d == "anonymize" || d == "cần xem xét" then Some(NeedsReview)
      else if d == "reject" || d == "delete" || d == "từ chối" then Some(Rejected)
      else None
  }

  /** Bucketing ignores letter case, Vietnamese labels included. */
  lemma HomeBucketIgnoresCase(s: string)
    ensures HomeBucket(Some(s)) == HomeBucket(Some(Lower(s)))
    ensures HomeBucket(Some("CẦN XEM XÉT")) == Some(NeedsReview)
    ensures HomeBucket(Some("Từ Chối")) == Some(Rejected)
  {
    LowerIdempotent(s);
    assert Lower("CẦN XEM XÉT") == "cần xem xét";
    assert Lower("Từ Chối") == "từ chối";
  }

  /** The two pages' alias sets: every decision the GDPR page recognises lands
      in the matching dashboard bucket, but the dashboard also accepts
      `allow`, `anonymize` and the Vietnamese labels, which the GDPR page
      shows as unknown. */
  lemma AliasSetsCompared(decision: Option<string>)
    ensures GdprPage.Classify(decision) == GdprPage.Approve ==> HomeBucket(decision) == Some(Approved)
    ensures GdprPage.Classify(decision) == GdprPage.Review ==> HomeBucket(decision) == Some(NeedsReview)
    ensures GdprPage.Classify(decision) == GdprPage.Reject ==> HomeBucket(decision) == Some(Rejected)
    ensures HomeBucket(Some("allow")) == Some(Approved) && GdprPage.Classify(Some("allow")) == GdprPage.Unknown
    ensures HomeBucket(Some("anonymize")) == Some(NeedsReview) && GdprPage.Classify(Some("anonymize")) == GdprPage.Unknown
  {
    assert Lower("allow") == "allow";
    assert Lower("anonymize") == "anonymize";
  }

  predicate InBucket(d: Doc, b: Bucket) { HomeBucket(d.gdprDecision) == Some(b) }
  predicate IsApproved(d: Doc) { InBucket(d, Approved) }
  predicate IsForReview(d: Doc) { InBucket(d, NeedsReview) }
  predicate IsRejected(d: Doc) { InBucket(d, Rejected) }
  predicate HasDecision(d: Doc) { Truthy(d.gdprDecision) }

  /** `gdprCounts`: the three bucket counts, in the dashboard's order; each
      bar's value is the number of positions whose decision falls in it. */
  function GdprCounts(docs: seq<Doc>): (r: seq<Bar>)
    ensures r == [Bar("Chấp thuận", |Indices(docs, IsApproved)|),
                  Bar("Cần xem xét", |Indices(docs, IsForReview)|),
                  Bar("Từ chối", |Indices(docs, IsRejected)|)]
    ensures Sum(r) <= Count(docs, HasDecision)
  {
    var approved := Count(docs, IsApproved);
    var review := Count(docs, IsForReview);
    var rejected := Count(docs, IsRejected);
    var r := [Bar("Chấp thuận", approved), Bar("Cần xem xét", review), Bar("Từ chối", rejected)];
    CountIsIndices(docs, IsApproved);
    CountIsIndices(docs, IsForReview);
    CountIsIndices(docs, IsRejected);
    GdprCountsBounded(docs);
    SumOfThree(r);
    r
  }

  lemma SumOfThree(r: seq<Bar>)
    requires |r| == 3
    ensures Sum(r) == r[0].value + r[1].value + r[2].value
  {
    var s1 := r[1..];
    var s2 := s1[1..];
    assert Sum(s2[1..]) == 0;
    assert Sum(s2) == r[2].value;
    assert Sum(s1) == r[1].value + Sum(s2);
  }

  lemma {:induction false} GdprCountsBounded(docs: seq<Doc>)
    ensures Count(docs, IsApproved) + Count(docs, IsForReview) + Count(docs, IsRejected) <= Count(docs, HasDecision)
    decreases |docs|
  {
    if |docs| > 0 {
      GdprCountsBounded(docs[1..]);
      CountStep(docs, IsApproved);
      CountStep(docs, IsForReview);
      CountStep(docs, IsRejected);
      CountStep(docs, HasDecision);
    }
  }

  /** Entries with a count of zero are left out of a chart series. */
  predicate Positive(b: Bar) { b.value > 0 }

  /** The formatted GDPR series: the non-empty buckets, in bucket order. */
  function GdprSeries(docs: seq<Doc>): (r: seq<Bar>)
    ensures AllPositive(r)
    ensures forall b :: b in r <==> b in GdprCounts(docs) && b.value > 0
    ensures IsSubsequence(r, GdprCounts(docs))
    ensures Sum(r) <= |docs|
  {
    var counts := GdprCounts(docs);
    PositiveBars(counts);
    assert Count(docs, HasDecision) <= |docs|;
    Filter(counts, Positive)
  }

  /** Dropping the empty bars leaves positive bars, in order, and no larger
      total. */
  lemma PositiveBars(bars: seq<Bar>)
    ensures var r := Filter(bars, Positive);
            && AllPositive(r)
            && (forall b :: b in r <==> b in bars && b.value > 0)
            && IsSubsequence(r, bars)
            && Sum(r) <= Sum(bars)
  {
    SumOfSubsequence(Filter(bars, Positive), bars);
  }

  /** A status-chart slice: Vietnamese label, count, original status name. */
  datatype Slice = Slice(name: string, value: nat, originalName: string)

  predicate PositiveSlice(s: Slice) { s.value > 0 }

  predicate AllPositiveSlices(slices: seq<Slice>) {
    forall i :: 0 <= i < |slices| ==> slices[i].value > 0
  }

  /** The keys of `statusCounts`, in the order the object literal lists them. */
  const StatusKeys: seq<string> := ["completed", "processing", "failed", "pending"]

  /** `statusLabels[key] || key`. */
  function StatusLabel(key: string): string {
    match key
    case "completed" => "Hoàn thành"
    case "processing" => "Đang xử lý"
    case "failed" => "Thất bại"
    case "pending" => "Chờ xử lý"
    case _ => key
  }

  /** `statusCounts[key]`, for the four keys of the object. */
  function CountFor(c: StatusCounts, key: string): nat {
    match key
    case "completed" => c.completed
    case "processing" => c.processing
    case "failed" => c.failed
    case "pending" => c.pending
    case _ => 0
  }

  /** `statusCounts` as labelled slices, in object order: one slice per key,
      carrying the key's Vietnamese label and its count, and together the
      slices hold every counted document. */
  function StatusSlices(c: StatusCounts): (r: seq<Slice>)
    ensures |r| == |StatusKeys|
    ensures forall i :: 0 <= i < |r| ==> r[i].originalName == StatusKeys[i]
    ensures forall i :: 0 <= i < |r| ==> r[i].name == StatusLabel(r[i].originalName)
    ensures forall i :: 0 <= i < |r| ==> r[i].value == CountFor(c, r[i].originalName)
    ensures r[0].value + r[1].value + r[2].value + r[3].value == c.Total()
  {
    [Slice("Hoàn thành", c.completed, "completed"),
     Slice("Đang xử lý", c.processing, "processing"),
     Slice("Thất bại", c.failed, "failed"),
     Slice("Chờ xử lý", c.pending, "pending")]
  }

  /** The formatted status series: exactly the statuses with a non-zero
      count, in object order. */
  function StatusSeries(c: StatusCounts): (r: seq<Slice>)
    ensures AllPositiveSlices(r)
    ensures forall s :: s in r <==> s in StatusSlices(c) && s.value > 0
    ensures IsSubsequence(r, StatusSlices(c))
  {
    Filter(StatusSlices(c), PositiveSlice)
  }

  /** A status appears in the series exactly when its count is non-zero. */
  lemma StatusSeriesShowsNonZero(c: StatusCounts)
    ensures Slice("Hoàn thành", c.completed, "completed") in StatusSeries(c) <==> c.completed > 0
    ensures Slice("Đang xử lý", c.processing, "processing") in StatusSeries(c) <==> c.processing > 0
    ensures Slice("Thất bại", c.failed, "failed") in StatusSeries(c) <==> c.failed > 0
    ensures Slice("Chờ xử lý", c.pending, "pending") in StatusSeries(c) <==> c.pending > 0
  {
    var all := StatusSlices(c);
    assert all[0] in all && all[1] in all && all[2] in all && all[3] in all;
  }

  /** The ten newest documents (by `created_at`, missing counted as 0). */
  function RecentDocuments(docs: seq<Doc>): (r: seq<Doc>)
    ensures |r| == if |docs| < RecentLimit then |docs| else RecentLimit
    ensures Descending(r, DocTime)
    ensures multiset(r) <= multiset(docs)
    ensures forall d, i :: d in docs && 0 <= i < |r| && DocTime(d) > DocTime(r[i]) ==> d in r
  {
    var sorted := SortDescending(docs, DocTime);
    var r := Take(sorted, RecentLimit);
    assert r == sorted[..|r|];
    TopOfSortedIsNewest(sorted, docs, |r|);
    r
  }

  /** The first `n` entries of a descending permutation hold every entry that
      is newer than one of them. */
  lemma TopOfSortedIsNewest(sorted: seq<Doc>, docs: seq<Doc>, n: nat)
    requires n <= |sorted|
    requires Descending(sorted, DocTime) && multiset(sorted) == multiset(docs)
    ensures Descending(sorted[..n], DocTime)
    ensures multiset(sorted[..n]) <= multiset(docs)
    ensures forall d, i :: d in docs && 0 <= i < n && DocTime(d) > DocTime(sorted[i]) ==> d in sorted[..n]
  {
    assert sorted == sorted[..n] + sorted[n..];
    forall d, i | d in docs && 0 <= i < n && DocTime(d) > DocTime(sorted[i])
      ensures d in sorted[..n]
    {
      assert d in multiset(sorted);
      var k :| 0 <= k < |sorted| && sorted[k] == d;
      if k < n {
        assert sorted[..n][k] == d;
      }
    }
  }

  /** Everything the dashboard computes from the document list. */
  datatype Stats = Stats(
    total: nat,
    counts: StatusCounts,
    byStatus: seq<Slice>,
    byDepartment: seq<Bar>,
    gdprDecisions: seq<Bar>,
    recent: seq<Doc>)

  function ComputeStats(docs: seq<Doc>): (r: Stats)
    ensures r.total == |docs|
    ensures r.counts.Total() <= r.total
    ensures Sum(r.byDepartment) == r.total && Descending(r.byDepartment, BarValue)
    ensures Sum(r.gdprDecisions) <= r.total && AllPositive(r.gdprDecisions)
    ensures AllPositiveSlices(r.byStatus)
    ensures |r.recent| <= RecentLimit && Descending(r.recent, DocTime) && multiset(r.recent) <= multiset(docs)
  {
    var counts := CountStatuses(docs);
    var byStatus := StatusSeries(counts);
    var byDepartment := DepartmentSeries(docs);
    var gdprDecisions := GdprSeries(docs);
    var recent := RecentDocuments(docs);
    Stats(|docs|, counts, byStatus, byDepartment, gdprDecisions, recent)
  }

  /** Dropping bars never raises the total. */
  lemma {:induction false} SumOfSubsequence(r: seq<Bar>, s: seq<Bar>)
    requires IsSubsequence(r, s)
    ensures Sum(r) <= Sum(s)
    decreases |s|
  {
    if |r| > 0 {
      if r[0] == s[0] {
        SumOfSubsequence(r[1..], s[1..]);
      } else {
        SumOfSubsequence(r, s[1..]);
      }
    }
  }

  /** What `GET /gdpr?limit=1000&has_analysis=true` produced: a fetch or JSON
      failure, or a body. */
  datatype StatsResponse = Unreadable | Body(success: bool, data: Option<seq<Doc>>)

  /** `data.success ? (data.data || []) : []`. */
  function DocumentsOf(body: StatsResponse): (r: seq<Doc>)
    requires body.Body?
    ensures !body.success ==> r == []
    ensures body.success && body.data.Some? ==> r == body.data.value
    ensures body.data.None? ==> r == []
  {
    if body.success then body.data.GetOr([]) else []
  }

  /** A refresh: an unreadable response leaves the previous statistics; any
      body is aggregated, a `success: false` one as an empty list (whose
      statistics `EmptyStats` spells out). */
  function FetchStatistics(previous: Stats, resp: StatsResponse): (r: Stats)
    ensures resp.Unreadable? ==> r == previous
    ensures resp.Body? && !resp.success ==> r == ComputeStats([])
    ensures resp.Body? ==> r.total == |DocumentsOf(resp)|
  {
    if resp.Unreadable? then previous
    else ComputeStats(DocumentsOf(resp))
  }

  /** With no documents every figure and every chart series is empty. */
  lemma EmptyStats()
    ensures var r := ComputeStats([]);
      r.total == 0 && r.counts.Total() == 0 && r.byStatus == [] && r.byDepartment == []
      && r.gdprDecisions == [] && r.recent == []
  {
    assert CountStatuses([]).Total() == 0;
    EmptyStatusSeries(CountStatuses([]));
    EmptyDepartmentSeries();
    EmptyGdprSeries();
  }

  /** The status chart is empty exactly when no document has a counted
      status. */
  lemma EmptyStatusSeries(c: StatusCounts)
    ensures StatusSeries(c) == [] <==> c.Total() == 0
  {
    FilterEmpty(StatusSlices(c), PositiveSlice);
  }

  lemma EmptyDepartmentSeries()
    ensures DepartmentSeries([]) == []
  {
    var r := DepartmentSeries([]);
    assert DepartmentLabels([]) == [];
    assert multiset(r) == multiset{};
  }

  lemma EmptyGdprSeries()
    ensures GdprSeries([]) == []
  {
    var r := GdprSeries([]);
    if |r| > 0 {
      assert false;
    }
  }

}

=== FILE: js.dfy ===
/** JavaScript value idioms the dashboard relies on: optional fields, truthiness
    of strings, `x || default`, `String.prototype.toLowerCase`, `trim()`-blankness
    and `startsWith`.  Strings are sequences of Unicode scalar values. */
module Js {

  /** An optional JSON field or nullable value.  `Some` stands for a present,
      truthy value wherever the source only tests presence. */
  datatype Option<+T> = None | Some(value: T) {
    function GetOr(default: T): T {
      match this
      case Some(v) => v
      case None => default
    }
  }

  /** A string-valued field is truthy when it is present and non-empty. */
  predicate Truthy(s: Option<string>) {
    s.Some? && s.value != ""
  }

  /** The `s || fallback` idiom on an optional string. */
  function OrElse(s: Option<string>, fallback: string): (r: string)
    ensures Truthy(s) ==> r == s.value
    ensures !Truthy(s) ==> r == fallback
    ensures r != "" ==> Truthy(s) || r == fallback
  {
    if Truthy(s) then s.value else fallback
  }

  /** A timestamp read with `new Date(x || 0)`: a missing value counts as 0. */
  function Timestamp(t: Option<int>): int {
    t.GetOr(0)
  }

  predicate IsUpper(c: char) {
    || 'A' <= c <= 'Z'
    || (0xC0 <= c as int <= 0xDE && c as int != 0xD7)
    || (0x1EA0 <= c as int <= 0x1EF8 && c as int % 2 == 0)
  }

  /** Lower-casing of one character: ASCII, the Latin-1 capitals and the
      Vietnamese letters with stacked diacritics (U+1EA0..U+1EF9, where each
      capital is immediately followed by its small letter). */
  function LowerChar(c: char): (r: char)
    ensures !IsUpper(r)
    ensures !IsUpper(c) ==> r == c
  {
    if 'A' <= c <= 'Z' then (c as int + 32) as char
    else if 0xC0 <= c as int <= 0xDE && c as int != 0xD7 then (c as int + 32) as char
    else if 0x1EA0 <= c as int <= 0x1EF8 && c as int % 2 == 0 then (c as int + 1) as char
    else c
  }

  /** `toLowerCase()` on the characters LowerChar covers. */
  function Lower(s: string): (r: string)
    ensures |r| == |s|
    ensures forall i :: 0 <= i < |s| ==> r[i] == LowerChar(s[i])
  {
    seq(|s|, i requires 0 <= i < |s| => LowerChar(s[i]))
  }

  /** Lower-casing twice is lower-casing once, so a comparison against
      `toLowerCase()` cannot tell `s` and `Lower(s)` apart. */
  lemma LowerIdempotent(s: string)
    ensures Lower(Lower(s)) == Lower(s)
  {
    var once := Lower(s);
    var twice := Lower(once);
    forall i | 0 <= i < |s|
      ensures twice[i] == once[i]
    {
      assert !IsUpper(once[i]);
    }
  }

  /** Characters `String.prototype.trim` removes. */
  predicate IsSpace(c: char) {
    c == ' ' || c == '\t' || c == '\n' || c == '\r' || c as int == 0x0B || c as int == 0x0C
    || c as int == 0xA0 || c as int == 0x1680 || (0x2000 <= c as int <= 0x200A)
    || c as int == 0x2028 || c as int == 0x2029 || c as int == 0x202F
    || c as int == 0x205F || c as int == 0x3000 || c as int == 0xFEFF
  }

  /** `trim()` yields the empty string exactly when every character is white space. */
  predicate IsBlank(s: string) {
    forall i :: 0 <= i < |s| ==> IsSpace(s[i])
  }

  predicate StartsWith(s: string, prefix: string) {
    |prefix| <= |s| && s[..|prefix|] == prefix
  }

  /** `xs.join(sep)`. */
  function Join(xs: seq<string>, sep: string): (r: string)
    ensures |xs| == 0 ==> r == ""
    ensures |xs| == 1 ==> r == xs[0]
    ensures |xs| > 0 ==> |r| >= |xs[0]| && r[..|xs[0]|] == xs[0]
    decreases |xs|
  {
    if |xs| == 0 then ""
    else if |xs| == 1 then xs[0]
    else xs[0] + sep + Join(xs[1..], sep)
  }

  /** Joining one more string adds the separator and that string at the end. */
  lemma {:induction false} JoinAppend(xs: seq<string>, y: string, sep: string)
    ensures Join(xs + [y], sep) == if |xs| == 0 then y else Join(xs, sep) + sep + y
    decreases |xs|
  {
    if |xs| > 1 {
      assert (xs + [y])[1..] == xs[1..] + [y];
      JoinAppend(xs[1..], y, sep);
    } else if |xs| == 1 {
      assert xs + [y] == [xs[0], y];
      assert [xs[0], y][1..] == [y];
    }
  }
}

=== FILE: polling.dfy ===
/** Vocabulary shared by the three status pollers: how a tick ends, and the
    intervals a page has running. */
module Polling {
  import opened Js

  /** How one tick of a poller ends.  Every variant but `Continue` clears the
      interval, so polling stops.
      - Success: the awaited result arrived and is surfaced;
      - Failed: the backend reported the job or step as failed;
      - Timeout: the poll budget ran out without a result;
      - ErrorStop: a request failed after the error budget was used up;
      - Finished: the job ended (`completed`) without the awaited result. */
  datatype Exit<+R> = Continue | Success(result: R) | Failed | Timeout | ErrorStop | Finished

  /** The intervals of one page: the handle kept in a ref and the set of
      intervals the browser is running. */
  datatype Timers = Timers(handle: Option<nat>, running: set<nat>)

  /** At most one interval runs, and if one does, the ref holds its handle. */
  predicate AtMostOneRunning(t: Timers) {
    t.running <= (if t.handle.Some? then {t.handle.value} else {})
  }

  /** `clearInterval(ref.current); ref.current = null`. */
  function StopInterval(t: Timers): (r: Timers)
    ensures r.handle.None?
    ensures r.running <= t.running
    ensures t.handle.Some? ==> t.handle.value !in r.running
    ensures AtMostOneRunning(t) ==> r.running == {}
  {
    Timers(None, if t.handle.Some? then t.running - {t.handle.value} else t.running)
  }

  /** `if (ref.current) clearInterval(ref.current); ref.current = setInterval(…)`,
      where the browser hands out `newHandle`, a handle not in use. */
  function StartInterval(t: Timers, newHandle: nat): (r: Timers)
    requires newHandle !in t.running
    ensures r.handle == Some(newHandle)
    ensures newHandle in r.running
    ensures AtMostOneRunning(t) ==> r.running == {newHandle}
    ensures AtMostOneRunning(t) ==> AtMostOneRunning(r)
  {
    Timers(Some(newHandle), StopInterval(t).running + {newHandle})
  }
}

=== FILE: seqs.dfy ===
/** Sequence operations behind `Array.prototype.filter`, `.slice(0, n)` and
    `.filter(p).length`, with the facts the page models need about them. */
module Seqs {

  /** `r` can be obtained from `s` by deleting entries; the order of the
      remaining entries is kept. */
  predicate IsSubsequence<T(==)>(r: seq<T>, s: seq<T>)
    decreases |s|
  {
    if |r| == 0 then true
    else if |s| == 0 then false
    else if r[0] == s[0] then IsSubsequence(r[1..], s[1..])
    else IsSubsequence(r, s[1..])
  }

  /** `s.filter(p)`. */
  function Filter<T(==,!new)>(s: seq<T>, p: T -> bool): (r: seq<T>)
    ensures |r| <= |s|
    ensures forall i :: 0 <= i < |r| ==> p(r[i])
    ensures forall x :: x in r <==> x in s && p(x)
    ensures multiset(r) <= multiset(s)
    ensures forall x :: multiset(r)[x] == if p(x) then multiset(s)[x] else 0
    ensures IsSubsequence(r, s)
    ensures (forall i :: 0 <= i < |s| ==> p(s[i])) ==> r == s
  {
    if |s| == 0 then []
    else
      var rest := Filter(s[1..], p);
      FilterStepElements(s, rest, p);
      FilterStepMultiset(s, rest, p);
      FilterStepOrder(s, rest, p);
      if p(s[0]) then [s[0]] + rest else rest
  }

  /** One step of `Filter`'s element clauses: the head of the input is kept
      in front of the filtered tail exactly when it satisfies `p`. */
  lemma FilterStepElements<T>(s: seq<T>, rest: seq<T>, p: T -> bool)
    requires |s| > 0
    requires |rest| <= |s[1..]|
    requires forall i :: 0 <= i < |rest| ==> p(rest[i])
    requires forall y :: y in rest <==> y in s[1..] && p(y)
    ensures var r := if p(s[0]) then [s[0]] + rest else rest;
            && |r| <= |s|
            && (forall i :: 0 <= i < |r| ==> p(r[i]))
            && (forall y :: y in r <==> y in s && p(y))
  {
    assert s == [s[0]] + s[1..];
    var r := if p(s[0]) then [s[0]] + rest else rest;
    if p(s[0]) {
      assert forall i :: 1 <= i < |r| ==> r[i] == rest[i - 1];
    }
  }

  /** One step of `Filter`'s multiplicity clauses. */
  lemma FilterStepMultiset<T>(s: seq<T>, rest: seq<T>, p: T -> bool)
    requires |s| > 0
    requires forall y :: multiset(rest)[y] == if p(y) then multiset(s[1..])[y] else 0
    ensures var r := if p(s[0]) then [s[0]] + rest else rest;
            && multiset(r) <= multiset(s)
            && forall y :: multiset(r)[y] == if p(y) then multiset(s)[y] else 0
  {
    assert s == [s[0]] + s[1..];
    assert multiset(s) == multiset{s[0]} + multiset(s[1..]);
    assert multiset([s[0]] + rest) == multiset{s[0]} + multiset(rest);
  }

  /** One step of `Filter`'s order clauses. */
  lemma FilterStepOrder<T>(s: seq<T>, rest: seq<T>, p: T -> bool)
    requires |s| > 0
    requires IsSubsequence(rest, s[1..])
    requires forall i :: 0 <= i < |rest| ==> p(rest[i])
    requires (forall i :: 0 <= i < |s[1..]| ==> p(s[1..][i])) ==> rest == s[1..]
    ensures var r := if p(s[0]) then [s[0]] + rest else rest;
            && IsSubsequence(r, s)
            && ((forall i :: 0 <= i < |s| ==> p(s[i])) ==> r == s)
  {
    if p(s[0]) {
      assert ([s[0]] + rest)[1..] == rest;
    } else if |rest| > 0 {
      assert rest[0] != s[0];
    }
    if forall i :: 0 <= i < |s| ==> p(s[i]) {
      assert p(s[0]);
      assert forall i :: 0 <= i < |s[1..]| ==> p(s[1..][i]) by {
        forall i | 0 <= i < |s[1..]|
          ensures p(s[1..][i])
        {
          assert s[1..][i] == s[i + 1];
        }
      }
      assert s == [s[0]] + s[1..];
    }
  }

  /** The filter drops everything exactly when nothing satisfies `p`. */
  lemma FilterEmpty<T(!new)>(s: seq<T>, p: T -> bool)
    ensures Filter(s, p) == [] <==> forall i :: 0 <= i < |s| ==> !p(s[i])
  {
    var r := Filter(s, p);
    if r != [] {
      assert r[0] in r;
    }
    if exists i :: 0 <= i < |s| && p(s[i]) {
      var i :| 0 <= i < |s| && p(s[i]);
      assert s[i] in r;
    }
  }

  /** `s.filter(p).length`. */
  function Count<T(==,!new)>(s: seq<T>, p: T -> bool): nat {
    |Filter(s, p)|
  }

  /** One step of the count: the head and then the rest. */
  lemma CountStep<T(!new)>(s: seq<T>, p: T -> bool)
    requires |s| > 0
    ensures Count(s, p) == (if p(s[0]) then 1 else 0) + Count(s[1..], p)
  {
  }

  /** The indices of `s` whose entries satisfy `p`. */
  function Indices<T>(s: seq<T>, p: T -> bool): (r: set<nat>)
    ensures forall i: nat :: i in r <==> i < |s| && p(s[i])
  {
    set i: nat | i < |s| && p(s[i])
  }

  /** Extending a sequence by one entry adds its position exactly when it
      satisfies `p`. */
  lemma IndicesSnoc<T>(init: seq<T>, last: T, p: T -> bool)
    ensures |Indices(init + [last], p)| == |Indices(init, p)| + (if p(last) then 1 else 0)
  {
    var s := init + [last];
    var extra: set<nat> := if p(last) then {|init|} else {};
    forall i: nat
      ensures i in Indices(s, p) <==> i in Indices(init, p) + extra
    {
      if i < |init| {
        assert s[i] == init[i];
      }
    }
    assert Indices(s, p) == Indices(init, p) + extra;
    assert |init| !in Indices(init, p);
  }

  /** The count is the number of positions whose entry satisfies `p`. */
  lemma {:induction false} CountIsIndices<T(!new)>(s: seq<T>, p: T -> bool)
    ensures Count(s, p) == |Indices(s, p)|
    decreases |s|
  {
    if |s| == 0 {
      assert Indices(s, p) == {};
    } else {
      var init, last := s[..|s| - 1], s[|s| - 1];
      assert s == init + [last];
      FilterAppend(init, [last], p);
      CountIsIndices(init, p);
      assert |Filter([last], p)| == if p(last) then 1 else 0;
      IndicesSnoc(init, last, p);
    }
  }

  /** Filtering distributes over concatenation. */
  lemma {:induction false} FilterAppend<T(!new)>(a: seq<T>, b: seq<T>, p: T -> bool)
    ensures Filter(a + b, p) == Filter(a, p) + Filter(b, p)
    decreases |a|
  {
    if |a| == 0 {
      assert a + b == b;
      assert Filter(a, p) == [];
    } else {
      var x, t := a[0], a[1..];
      assert a == [x] + t;
      assert a + b == [x] + (t + b);
      FilterAppend(t, b, p);
      FilterCons(x, t + b, p);
      FilterCons(x, t, p);
      if p(x) {
        AppendAssociates([x], Filter(t, p), Filter(b, p));
      }
    }
  }

  lemma AppendAssociates<T>(a: seq<T>, b: seq<T>, c: seq<T>)
    ensures (a + b) + c == a + (b + c)
  {
  }

  /** Filtering a sequence with a known head. */
  lemma FilterCons<T(!new)>(x: T, s: seq<T>, p: T -> bool)
    ensures Filter([x] + s, p) == if p(x) then [x] + Filter(s, p) else Filter(s, p)
  {
    assert ([x] + s)[1..] == s;
  }

  /** `s.slice(0, n)`. */
  function Take<T>(s: seq<T>, n: nat): (r: seq<T>)
    ensures |r| == if |s| < n then |s| else n
    ensures forall i :: 0 <= i < |r| ==> r[i] == s[i]
  {
    if |s| < n then s else s[..n]
  }
}

=== FILE: sharing_page.dfy ===
/** The sharing page of `src/pages/SharingPage.jsx`: the recipient selection
    list, the derived e-mail string, submit validation, the approval actions
    and the (unbounded) sharing status poller. */
module SharingPage {
  import opened Js
  import opened Seqs
  import opened Documents
  import opened Polling

  datatype User = User(id: string, name: string, email: string)

  /** `usersByDepartment`: the fixed recipient directory. */
  const Directory: map<string, seq<User>> := map[
    "IT" := [
      User("user001", "Nguyễn Văn A", "nguyenvana@company.com"),
      User("user002", "Trần Văn B", "tranvanb@company.com")],
    "HR" := [
      User("user003", "Lê Thị C", "lethic@company.com"),
      User("user004", "Phạm Văn D", "phamvand@company.com")],
    "Finance" := [
      User("user005", "Hoàng Thị E", "hoangthie@company.com"),
      User("user006", "Vũ Văn F", "vuvanf@company.com"),
      User("user007", "Phạm H", "hpham@company.com")]
  ]

  function Ids(users: seq<User>): set<string> {
    set u | u in users :: u.id
  }

  /** No two entries share an id. */
  predicate UniqueIds(users: seq<User>) {
    forall i, j :: 0 <= i < j < |users| ==> users[i].id != users[j].id
  }

  /** `availableUsers`: the selected department's users; none when no
      department is selected ('') or the department is not in the directory. */
  function AvailableUsers(department: string): (r: seq<User>)
    ensures department == "" || department !in Directory ==> r == []
    ensures department in Directory ==> r == Directory[department]
    ensures UniqueIds(r)
  {
    if department == "" then []
    else if department in Directory then Directory[department]
    else []
  }

  /** `addUser`: appends the user unless one with the same id is selected. */
  function AddUser(selected: seq<User>, user: User): (r: seq<User>)
    ensures user.id in Ids(selected) ==> r == selected
    ensures user.id !in Ids(selected) ==> r == selected + [user]
    ensures Ids(r) == Ids(selected) + {user.id}
    ensures UniqueIds(selected) ==> UniqueIds(r)
  {
    if exists u :: u in selected && u.id == user.id then selected
    else selected + [user]
  }

  /** Keeping entries of a list with unique ids keeps the ids unique. */
  lemma {:induction false} FilterKeepsUniqueIds(users: seq<User>, p: User -> bool)
    requires UniqueIds(users)
    ensures UniqueIds(Filter(users, p))
    decreases |users|
  {
    if |users| > 0 {
      assert UniqueIds(users[1..]);
      FilterKeepsUniqueIds(users[1..], p);
      var rest := Filter(users[1..], p);
      forall u | u in rest
        ensures u.id != users[0].id
      {
        var k :| 0 <= k < |users[1..]| && users[1..][k] == u;
        assert users[k + 1] == u;
      }
      if p(users[0]) {
        ConsUniqueIds(users[0], rest);
      }
    }
  }

  /** A user whose id is new can go in front of a list with unique ids. */
  lemma ConsUniqueIds(u: User, rest: seq<User>)
    requires UniqueIds(rest)
    requires forall v :: v in rest ==> v.id != u.id
    ensures UniqueIds([u] + rest)
  {
    var r := [u] + rest;
    forall i, j | 0 <= i < j < |r|
      ensures r[i].id != r[j].id
    {
      assert r[j] == rest[j - 1];
      if i > 0 {
        assert r[i] == rest[i - 1];
      }
    }
  }

  /** The users of `users` whose id is not selected yet, in their order. */
  function NotYetSelected(selected: seq<User>, users: seq<User>): (r: seq<User>)
    ensures IsSubsequence(r, users)
    ensures forall u :: u in r <==> u in users && u.id !in Ids(selected)
  {
    Filter(users, (u: User) => u.id !in Ids(selected))
  }

  /** Appending the not-yet-selected users covers every user and, when both
      lists have unique ids, keeps the ids unique. */
  lemma AppendNotYetSelected(selected: seq<User>, users: seq<User>)
    ensures forall u :: u in users ==> u.id in Ids(selected + NotYetSelected(selected, users))
    ensures UniqueIds(selected) && UniqueIds(users) ==> UniqueIds(selected + NotYetSelected(selected, users))
  {
    var added := NotYetSelected(selected, users);
    var r := selected + added;
    forall u | u in users
      ensures u.id in Ids(r)
    {
      if u.id !in Ids(selected) {
        assert u in added;
      } else {
        var v :| v in selected && v.id == u.id;
        assert v in r;
      }
    }
    if UniqueIds(selected) && UniqueIds(users) {
      FilterKeepsUniqueIds(users, (u: User) => u.id !in Ids(selected));
      forall i, j | 0 <= i < |selected| <= j < |r|
        ensures r[i].id != r[j].id
      {
        assert r[j] == added[j - |selected|];
        assert r[j] in added;
        assert r[i] in selected;
      }
    }
  }

  /** `[...selectedUsers, ...newUsers]` with the not-yet-selected users. */
  function AddAllUsers(selected: seq<User>, users: seq<User>): (r: seq<User>)
    ensures |selected| <= |r| && r[..|selected|] == selected
    ensures IsSubsequence(r[|selected|..], users)
    ensures forall u :: u in r[|selected|..] <==> u in users && u.id !in Ids(selected)
    ensures forall u :: u in users ==> u.id in Ids(r)
    ensures UniqueIds(selected) && UniqueIds(users) ==> UniqueIds(r)
  {
    var added := NotYetSelected(selected, users);
    AppendNotYetSelected(selected, users);
    assert (selected + added)[..|selected|] == selected;
    assert (selected + added)[|selected|..] == added;
    selected + added
  }

  /** `addAllUsersFromDepartment`. */
  function AddAllUsersFromDepartment(selected: seq<User>, department: string): (r: seq<User>)
    ensures |selected| <= |r| && r[..|selected|] == selected
    ensures forall u :: u in AvailableUsers(department) ==> u.id in Ids(r)
    ensures UniqueIds(selected) ==> UniqueIds(r)
  {
    AddAllUsers(selected, AvailableUsers(department))
  }

  /** Adding a whole department a second time changes nothing. */
  lemma AddAllIdempotent(selected: seq<User>, department: string)
    ensures AddAllUsersFromDepartment(AddAllUsersFromDepartment(selected, department), department)
         == AddAllUsersFromDepartment(selected, department)
  {
    var once := AddAllUsersFromDepartment(selected, department);
    var again := NotYetSelected(once, AvailableUsers(department));
    assert forall u :: u !in again;
    assert again == [];
    assert once + again == once;
  }

  /** `removeUser`: drops the entries with that id and keeps the rest in order. */
  function RemoveUser(selected: seq<User>, userId: string): (r: seq<User>)
    ensures userId !in Ids(r)
    ensures forall u :: u in r <==> u in selected && u.id != userId
    ensures IsSubsequence(r, selected)
    ensures Ids(r) == Ids(selected) - {userId}
    ensures UniqueIds(selected) ==> UniqueIds(r)
  {
    RemoveKeepsUniqueIds(selected, userId);
    Filter(selected, (u: User) => u.id != userId)
  }

  lemma RemoveKeepsUniqueIds(selected: seq<User>, userId: string)
    ensures UniqueIds(selected) ==> UniqueIds(Filter(selected, (u: User) => u.id != userId))
  {
    if UniqueIds(selected) {
      FilterKeepsUniqueIds(selected, (u: User) => u.id != userId);
    }
  }

  /** Removing a user that was just added restores the previous selection. */
  lemma RemoveUndoesAdd(selected: seq<User>, user: User)
    requires user.id !in Ids(selected)
    ensures RemoveUser(AddUser(selected, user), user.id) == selected
  {
    var p := (u: User) => u.id != user.id;
    FilterAppend(selected, [user], p);
    assert Filter([user], p) == [];
    assert forall i :: 0 <= i < |selected| ==> p(selected[i]) by {
      forall i | 0 <= i < |selected|
        ensures p(selected[i])
      {
        assert selected[i] in selected;
      }
    }
  }

  /** `clearAllUsers`. */
  function ClearAllUsers(selected: seq<User>): (r: seq<User>)
    ensures Ids(r) == {}
  {
    []
  }

  function Emails(users: seq<User>): (r: seq<string>)
    ensures |r| == |users|
    ensures forall i :: 0 <= i < |users| ==> r[i] == users[i].email
  {
    seq(|users|, i requires 0 <= i < |users| => users[i].email)
  }

  /** `selectedUsers.map(u => u.email).join(', ')`. */
  function SharingEmails(selected: seq<User>): (r: string)
    ensures |selected| == 0 ==> r == ""
    ensures |selected| == 1 ==> r == selected[0].email
    ensures |selected| > 0 ==> |r| >= |selected[0].email| && r[..|selected[0].email|] == selected[0].email
  {
    Join(Emails(selected), ", ")
  }

  /** The e-mail string follows the list: adding a new user appends ", " and
      the user's e-mail (or just the e-mail to an empty list); adding a selected
      user changes nothing, and clearing empties it. */
  lemma SharingEmailsFollowAdd(selected: seq<User>, user: User)
    ensures user.id in Ids(selected) ==> SharingEmails(AddUser(selected, user)) == SharingEmails(selected)
    ensures user.id !in Ids(selected) && |selected| == 0 ==> SharingEmails(AddUser(selected, user)) == user.email
    ensures user.id !in Ids(selected) && |selected| > 0 ==>
              SharingEmails(AddUser(selected, user)) == SharingEmails(selected) + ", " + user.email
    ensures SharingEmails(ClearAllUsers(selected)) == ""
  {
    if user.id !in Ids(selected) {
      assert Emails(selected + [user]) == Emails(selected) + [user.email];
      JoinAppend(Emails(selected), user.email, ", ");
    }
  }


  /** Body of `POST /api/document/trigger-sharing`. */
  datatype ShareRequest = ShareRequest(
    processingId: string,
    department: string,
    sharingEmails: string,
    selectedUsers: seq<User>,
    userId: string)

  /** What pressing the submit button leads to.  `DepartmentRequired` is the
      browser's own refusal: the department `<select>` is `required` and its
      placeholder option has the empty value, so an unchosen department stops
      the form before `handleSubmit` runs. */
  datatype Submission = DepartmentRequired | NoFileAlert | NoUsersAlert | Send(request: ShareRequest)

  /** Submitting the form: the browser first insists on a department, then
      `handleSubmit` needs a file and at least one recipient, checked in that
      order. */
  function Submit(file: Option<SelectedFile>, department: string, selected: seq<User>): (r: Submission)
    ensures r.Send? <==> department != "" && file.Some? && |selected| > 0
    ensures department == "" ==> r == DepartmentRequired
    ensures department != "" && file.None? ==> r == NoFileAlert
    ensures department != "" && file.Some? && |selected| == 0 ==> r == NoUsersAlert
    ensures r.Send? ==> (
              && r.request.processingId == file.value.processingId
              && r.request.department == department
              && r.request.selectedUsers == selected
              && r.request.sharingEmails == SharingEmails(selected)
              && r.request.userId == selected[0].id)
  {
    if department == "" then DepartmentRequired
    else if file.None? then NoFileAlert
    else if |selected| == 0 then NoUsersAlert
    else
      Send(ShareRequest(
        file.value.processingId,
        department,
        SharingEmails(selected),
        selected,
        if |selected| > 0 then selected[0].id else "default-user"))
  }

  /** A sent request always names one of the selected users as `userId`, so
      the `'default-user'` fallback is never sent. With a file and a
      department chosen, adding any user makes the form sendable and the
      added user is among the recipients; clearing the list makes it refuse.
      Without a department no change to the recipients gets the form sent. */
  lemma SubmitAfterAdd(file: Option<SelectedFile>, department: string, selected: seq<User>, user: User)
    ensures Submit(file, department, selected).Send? ==>
              Submit(file, department, selected).request.userId in Ids(Submit(file, department, selected).request.selectedUsers)
    ensures file.Some? && department != "" ==> Submit(file, department, AddUser(selected, user)).Send?
    ensures file.Some? && department != "" ==>
              user.id in Ids(Submit(file, department, AddUser(selected, user)).request.selectedUsers)
    ensures file.Some? && department != "" ==> Submit(file, department, ClearAllUsers(selected)) == NoUsersAlert
    ensures department == "" ==> Submit(file, department, AddUser(selected, user)) == DepartmentRequired
  {
    if |selected| > 0 {
      assert selected[0] in selected;
    }
    var added := AddUser(selected, user);
    assert user.id in Ids(added);
    assert |added| > 0;
  }

  /** Response to the sharing trigger: a failed request, or a body. */
  datatype TriggerResponse =
    | TriggerHttpError
    | TriggerBody(success: bool, needApproval: Option<bool>, message: Option<string>)

  /** What the page does next. */
  datatype AfterTrigger = AwaitApproval(message: string) | StartPolling | ShowError

  const DefaultApprovalMessage: string := "Tài liệu cần được phê duyệt bởi admin"

  /** `needApproval === true` parks the share as `pending_approval` without
      polling; any other successful answer starts the poller. */
  function AfterSubmit(resp: TriggerResponse): (r: AfterTrigger)
    ensures r.AwaitApproval? <==> resp.TriggerBody? && resp.success && resp.needApproval == Some(true)
    ensures r.StartPolling? <==> resp.TriggerBody? && resp.success && resp.needApproval != Some(true)
    ensures r.ShowError? <==> resp.TriggerHttpError? || !resp.success
    ensures r.AwaitApproval? && Truthy(resp.message) ==> r.message == resp.message.value
    ensures r.AwaitApproval? && !Truthy(resp.message) ==> r.message == DefaultApprovalMessage
  {
    match resp
    case TriggerHttpError => ShowError
    case TriggerBody(success, needApproval, message) =>
      if !success then ShowError
      else if needApproval == Some(true) then AwaitApproval(OrElse(message, DefaultApprovalMessage))
      else StartPolling
  }

  /** The `loading` flag once the trigger has answered. It is raised before
      the request goes out and lowered only by the error path; neither the
      approval branch nor the poller lowers it. */
  function LoadingAfter(resp: TriggerResponse): (r: bool)
    ensures r <==> !AfterSubmit(resp).ShowError?
    ensures r <==> AfterSubmit(resp).AwaitApproval? || AfterSubmit(resp).StartPolling?
  {
    match resp
    case TriggerHttpError => false
    case TriggerBody(success, _, _) => success
  }

  /** The share button is disabled while loading or without a file; the
      spinner shows exactly while loading. */
  predicate SubmitDisabled(loading: bool, fileChosen: bool) {
    loading || !fileChosen
  }

  /** After any successful trigger the form stays locked: the button is
      disabled and the spinner keeps showing, even when the share is parked
      for approval; only a failed trigger unlocks it. */
  lemma SuccessKeepsFormLocked(resp: TriggerResponse, fileChosen: bool)
    ensures SubmitDisabled(LoadingAfter(resp), fileChosen) <==> !AfterSubmit(resp).ShowError? || !fileChosen
    ensures AfterSubmit(resp).AwaitApproval? ==> LoadingAfter(resp) && SubmitDisabled(LoadingAfter(resp), fileChosen)
  {
  }

  /** The overall status shown after the trigger answered. */
  function ShownStatus(next: AfterTrigger): (r: Option<string>)
    ensures r == Some("pending_approval") <==> next.AwaitApproval?
  {
    match next
    case AwaitApproval(_) => Some("pending_approval")
    case StartPolling => Some("processing")
    case ShowError => None
  }

  /** One entry of the approvals list. */
  datatype Approval = Approval(uniqueKey: string, status: string, documentTitle: string)

  /** Body of `POST /api/approvals/process`. */
  datatype ApprovalDecision =
    | ApproveRequest(uniqueKey: string, approvedBy: string)
    | RejectRequest(uniqueKey: string, rejectedBy: string, reason: string)

  /** Approve and reject buttons appear only on `PENDING` approvals. */
  predicate OffersActions(a: Approval) {
    a.status == "PENDING"
  }

  datatype Action = ApproveAction | RejectAction

  /** The action buttons under an approval card: both for a pending approval,
      none for an approved or rejected one. */
  function Actions(a: Approval): (r: set<Action>)
    ensures r != {} <==> OffersActions(a)
    ensures OffersActions(a) ==> ApproveAction in r && RejectAction in r
  {
    if OffersActions(a) then {ApproveAction, RejectAction} else {}
  }

  /** `handleApprove`: sends only after the user confirms. */
  function Approve(a: Approval, confirmed: bool, admin: string): (r: Option<ApprovalDecision>)
    ensures r.Some? <==> confirmed
    ensures r.Some? ==> r.value.ApproveRequest? && r.value.uniqueKey == a.uniqueKey && r.value.approvedBy == admin
  {
    if confirmed then Some(ApproveRequest(a.uniqueKey, admin)) else None
  }

  /** `handleReject`: the prompt's answer (None when cancelled) must not be
      blank; the reason is sent as typed, untrimmed. */
  function Reject(a: Approval, reason: Option<string>, admin: string): (r: Option<ApprovalDecision>)
    ensures r.Some? <==> reason.Some? && !IsBlank(reason.value)
    ensures r.Some? ==> r.value == RejectRequest(a.uniqueKey, admin, reason.value)
  {
    if reason.None? || IsBlank(reason.value) then None
    else Some(RejectRequest(a.uniqueKey, admin, reason.value))
  }

  /** A reason of spaces only is refused. */
  lemma BlankReasonRefused(a: Approval, admin: string)
    ensures Reject(a, Some("   "), admin).None?
    ensures Reject(a, None, admin).None?
    ensures Reject(a, Some(" no "), admin) == Some(RejectRequest(a.uniqueKey, admin, " no "))
  {
    assert !IsSpace(" no "[1]);
  }

  /** The "pending" tab count: approvals whose status is `PENDING`. */
  function PendingCount(approvals: seq<Approval>): (r: nat)
    ensures r <= |approvals|
    ensures r == 0 <==> forall i :: 0 <= i < |approvals| ==> !OffersActions(approvals[i])
    ensures r == |Seqs.Indices(approvals, OffersActions)|
  {
    var pending := Filter(approvals, OffersActions);
    assert forall i :: 0 <= i < |approvals| && OffersActions(approvals[i]) ==> approvals[i] in pending;
    Seqs.CountIsIndices(approvals, OffersActions);
    |pending|
  }

  /** The sharing poller's view of the page. */
  datatype Poller = Poller(polling: bool, result: Option<SharingResult>, status: Option<StatusData>)

  datatype Response = FetchError | Received(data: StatusData)

  /** The job ended (or failed) without a sharing result. */
  predicate JobOver(d: StatusData) {
    d.status == Some("completed") || d.status == Some("failed")
  }

  /** One tick: errors are logged and ignored; a sharing result or an ended
      job clears the interval.  There is no poll counter. */
  function Tick(p: Poller, resp: Response): (r: (Poller, Exit<SharingResult>))
    ensures resp.FetchError? ==> r == (p, Continue)
    ensures r.1.Success? <==> resp.Received? && resp.data.results.sharing.Some?
    ensures r.1.Success? ==> r.0.result == resp.data.results.sharing && r.1.result == resp.data.results.sharing.value
    ensures r.1 == Finished <==> resp.Received? && resp.data.results.sharing.None? && resp.data.status == Some("completed")
    ensures r.1 == Failed <==> resp.Received? && resp.data.results.sharing.None? && resp.data.status == Some("failed")
    ensures !r.1.Timeout? && !r.1.ErrorStop?
    ensures resp.Received? ==> r.0.status == Some(resp.data)
    ensures !r.1.Continue? ==> !r.0.polling
    ensures r.1.Continue? ==> r.0.polling == p.polling && r.0.result == p.result
  {
    match resp
    case FetchError => (p, Continue)
    case Received(data) =>
      var seen := p.(status := Some(data));
      if data.results.sharing.Some? then
        (seen.(result := data.results.sharing, polling := false), Success(data.results.sharing.value))
      else if data.status == Some("completed") then (seen.(polling := false), Finished)
      else if data.status == Some("failed") then (seen.(polling := false), Failed)
      else (seen, Continue)
  }

  function Run(p: Poller, resps: seq<Response>): (r: (Poller, Exit<SharingResult>, nat))
    ensures r.2 <= |resps|
    ensures r.1.Continue? ==> r.2 == |resps|
    ensures !r.1.Continue? ==> 1 <= r.2 && !r.0.polling
    decreases |resps|
  {
    if |resps| == 0 then (p, Continue, 0)
    else
      var (q, e) := Tick(p, resps[0]);
      if e.Continue? then
        var (q', e', n) := Run(q, resps[1..]);
        (q', e', n + 1)
      else (q, e, 1)
  }

  /** The sharing poller has no bound: however long the answers stay
      unfinished or failing, it keeps polling. */
  lemma {:induction false} NoPollBound(p: Poller, resps: seq<Response>)
    requires forall i :: 0 <= i < |resps| ==>
               resps[i].FetchError? || (resps[i].data.results.sharing.None? && !JobOver(resps[i].data))
    ensures Run(p, resps).1.Continue?
    ensures Run(p, resps).0.polling == p.polling
    decreases |resps|
  {
    if |resps| > 0 {
      var (q, e) := Tick(p, resps[0]);
      NoPollBound(q, resps[1..]);
    }
  }

  /** Request errors never change the poller, however many in a row. */
  lemma {:induction false} ErrorsNeverStop(p: Poller, n: nat)
    ensures Run(p, seq(n, _ => FetchError)) == (p, Continue, n)
    decreases n
  {
    if n > 0 {
      assert seq(n, _ => FetchError)[1..] == seq(n - 1, _ => FetchError);
      ErrorsNeverStop(p, n - 1);
    }
  }
}

=== FILE: sorting.dfy ===
/** Descending sorts by an integer key: the newest-first ordering the lists use,
    `xs.sort((a, b) => new Date(b.t || 0) - new Date(a.t || 0))`, and the
    count ordering of the department series, `xs.sort((a, b) => b[1] - a[1])`.
    `Array.prototype.sort` is stable, so this is modelled as a stable insertion
    sort, non-increasing from the front. */
module Sorting {

  /** Every entry's key is at least that of every entry after it (for
      timestamps: at least as new). */
  predicate Descending<T>(s: seq<T>, key: T -> int) {
    forall i, j :: 0 <= i < j < |s| ==> key(s[i]) >= key(s[j])
  }

  /** Inserts `x` in front of the first entry whose key is not above its own, so
      `x` stays ahead of the entries with an equal key that followed it. */
  function Insert<T>(x: T, s: seq<T>, key: T -> int): (r: seq<T>)
    requires Descending(s, key)
    ensures Descending(r, key)
    ensures multiset(r) == multiset(s) + multiset{x}
    ensures |r| == |s| + 1
  {
    if |s| == 0 then [x]
    else if key(s[0]) <= key(x) then
      InsertFront(x, s, key);
      [x] + s
    else
      var rest := Insert(x, s[1..], key);
      InsertBehind(x, s, rest, key);
      [s[0]] + rest
  }

  /** `x` keyed at least as high as the head goes in front. */
  lemma InsertFront<T>(x: T, s: seq<T>, key: T -> int)
    requires Descending(s, key)
    requires |s| > 0 && key(s[0]) <= key(x)
    ensures Descending([x] + s, key)
    ensures multiset([x] + s) == multiset(s) + multiset{x}
  {
    ConsDescending(x, s, key);
  }

  /** `x` keyed below the head goes into the tail, behind the head. */
  lemma InsertBehind<T>(x: T, s: seq<T>, rest: seq<T>, key: T -> int)
    requires Descending(s, key)
    requires |s| > 0 && key(s[0]) > key(x)
    requires Descending(rest, key)
    requires multiset(rest) == multiset(s[1..]) + multiset{x}
    ensures Descending([s[0]] + rest, key)
    ensures multiset([s[0]] + rest) == multiset(s) + multiset{x}
  {
    assert s == [s[0]] + s[1..];
    assert multiset(s[1..] + [x]) == multiset(s[1..]) + multiset{x};
    BoundedPermutation(rest, s[1..] + [x], key, key(s[0]));
    ConsDescending(s[0], rest, key);
  }

  /** An entry keyed at least as high as the head of a descending list can go
      in front of it. */
  lemma ConsDescending<T>(h: T, s: seq<T>, key: T -> int)
    requires Descending(s, key)
    requires forall i :: 0 <= i < |s| ==> key(s[i]) <= key(h)
    ensures Descending([h] + s, key)
  {
    var r := [h] + s;
    forall i, j | 0 <= i < j < |r|
      ensures key(r[i]) >= key(r[j])
    {
      assert r[j] == s[j - 1];
      if i > 0 {
        assert r[i] == s[i - 1];
      }
    }
  }

  /** A rearrangement of entries whose keys are at most `b` has only such
      entries. */
  lemma BoundedPermutation<T>(r: seq<T>, u: seq<T>, key: T -> int, b: int)
    requires multiset(r) == multiset(u)
    requires forall i :: 0 <= i < |u| ==> key(u[i]) <= b
    ensures forall i :: 0 <= i < |r| ==> key(r[i]) <= b
  {
    forall i | 0 <= i < |r|
      ensures key(r[i]) <= b
    {
      assert r[i] in multiset(u);
      var k :| 0 <= k < |u| && u[k] == r[i];
    }
  }

  /** The list in descending key order: a permutation of the input. */
  function SortDescending<T>(s: seq<T>, key: T -> int): (r: seq<T>)
    ensures Descending(r, key)
    ensures multiset(r) == multiset(s)
    ensures |r| == |s|
  {
    if |s| == 0 then []
    else
      assert s == [s[0]] + s[1..];
      Insert(s[0], SortDescending(s[1..], key), key)
  }

  /** Ordering a list that is already descending changes nothing: no two
      entries with equal keys are swapped. */
  lemma {:induction false} SortKeepsOrderedInput<T>(s: seq<T>, key: T -> int)
    requires Descending(s, key)
    ensures SortDescending(s, key) == s
    decreases |s|
  {
    if |s| > 0 {
      assert Descending(s[1..], key);
      SortKeepsOrderedInput(s[1..], key);
    }
  }
}
